=== FILE: README.md ===
# seqtable in Dafny

seqtable counts how often each distinct read sequence occurs in a FASTA/FASTQ
file. It writes one row per distinct sequence, sorted by descending count, with
an optional reads-per-million (rpm) column. The output is Parquet, CSV or TSV.
This project models the program's core as pure functions and short methods and
proves what each stage promises:

- `ThreadBudget` resolves the worker-thread count from the request,
  RAYON_NUM_THREADS, the GNU parallel variables and the core count.
- `ChunkPlan` picks the chunk size from the file's byte length.
- `Counting` models the reader as a stream of pulls, each a record or a
  malformed entry. It holds the sequential counter, the chunked counter
  (read into chunks, count each chunk, merge the partial maps) and the
  dispatcher between them.
- `Frequency` and `Reduction` give counting maps their meaning. `Tally` is the
  multiset of the reads as a map. `Merge` adds counts pointwise. Any merge
  schedule the parallel runtime may pick gives the same map.
- `Table` models `prepare_records`: one record per map entry, sorted by
  descending count, with an rpm that is an exact ratio.
- `Output` covers format extensions, the Parquet schema, columns and codec
  selection, and the delimited-text rows. It also reads an output back.
- `Pipeline` runs one file end to end, as `process_file` does.
- `Decimal` models `u64::to_string` and unsigned `FromStr`.
- `Outcomes` holds the shared `Option` and `Result` types.

The environment and the core count are passed in as values. The file's records
are a `seq<Pull>`, where a `Malformed` pull stands for a parse error of the
FASTX reader. rpm values are kept as exact `Ppm(count, total)` ratios. Their
two-decimal rendering is a parameter `formatRpm` of the text writer.

The thread count is not always positive. RAYON_NUM_THREADS=0 parses and is
returned as 0 (src/main.rs:108-111). `main` then skips configuring the pool
(src/main.rs:65), so rayon's default applies.

## Model

| member | source | states |
|---|---|---|
| Decimal.ToDecimal | src/output.rs:152 | `count.to_string()`: a non-empty digit string without leading zeros that denotes the number |
| Decimal.ParseUnsigned | src/main.rs:109 | unsigned `parse` succeeds exactly when, after an optional leading `+`, the text is a non-empty run of digits whose value is at most the type's maximum, and then returns that value |
| Decimal.ParseToDecimal | src/main.rs:109 | parsing what `to_string` wrote gives the number back when it fits the type |
| Decimal.ParseRejectsOverflow | src/main.rs:109 | a value above the type's range is rejected, not wrapped |
| Decimal.ParseExamples | src/main.rs:109 | "4", "+4" and "007" parse; "", "+", "-1" and " 4" do not |
| ThreadBudget.Override | src/main.rs:107-112 | no RAYON_NUM_THREADS gives no override; otherwise the override is the variable parsed as a `usize`, absent when it does not parse |
| ThreadBudget.SiblingJobs | src/main.rs:118-127 | PARALLEL is consulted only when PARALLEL_SEQ is present; then a parseable PARALLEL gives its value and a missing or unparsable one gives 1; any result other than 1 is PARALLEL parsed as a number |
| ThreadBudget.OptimalThreads | src/main.rs:102-137 | a positive request wins; a parseable RAYON_NUM_THREADS is returned as is; otherwise the result is at most the core count or exactly 1; 0 comes only from RAYON_NUM_THREADS=0 or a zero core count |
| ThreadBudget.Share | src/main.rs:129-133 | the per-job share is at least 1 and exceeds the core count only when it is 1 |
| ThreadBudget.FairShare | src/main.rs:129-133 | with more than one sibling job and enough cores, n·jobs ≤ cores < (n+1)·jobs, so siblings never oversubscribe; with fewer cores than jobs each job gets 1 |
| ThreadBudget.ShareBounds | src/main.rs:131 | floor-division bounds of `(cores / jobs).max(1)` |
| ThreadBudget.AllCoresAlone | src/main.rs:135-136 | without an override and without siblings, every core is used |
| ThreadBudget.AutomaticBudgetPositive | src/main.rs:114-136 | without an override, a machine with at least one core gets at least one thread |
| ThreadBudget.OverrideIgnoresSiblings | src/main.rs:107-112 | a parseable RAYON_NUM_THREADS makes the parallel variables irrelevant |
| ThreadBudget.ParallelNeedsSeqMarker | src/main.rs:118-127 | without PARALLEL_SEQ, PARALLEL is ignored and all cores are used |
| ThreadBudget.Examples | src/main.rs:102-137 | 8 cores and 4 jobs give 2; 3 cores and 4 jobs give 1; RAYON_NUM_THREADS=0 gives 0; an unparsable override falls through |
| ChunkPlan.EstimatedRecords | src/main.rs:146 | the estimate is at least 100, and is either 100 or the whole number of 100-byte records that fit the file (est·100 ≤ size < (est+1)·100) |
| ChunkPlan.EstimateIsUnique | src/main.rs:146 | those bounds pin the estimate down: any number meeting them is the estimate |
| ChunkPlan.ChunkSize | src/main.rs:140-155 | a positive request is used unchanged; otherwise the size is one of 0, 10,000, 25,000, 50,000, 100,000 |
| ChunkPlan.AutoSizeByBytes | src/main.rs:146-154 | the automatic tiers restated on byte thresholds 1,000,100 / 10,000,100 / 100,000,100 / 1,000,000,100 |
| ChunkPlan.AutoSizeMonotonic | src/main.rs:146-154 | a larger file never gets a smaller automatic chunk size |
| ChunkPlan.SmallFilesAreSequential | src/main.rs:149 | the automatic size is 0 (sequential counting) exactly when the file is under 1,000,100 bytes |
| ChunkPlan.Examples | src/main.rs:140-155 | a 50-byte file gets 0; a 2,000,000-byte file gets 10,000; a request of 7 gives 7 |
| Frequency.Tally | src/main.rs:331 | the reference meaning of a count map: its keys are the distinct reads and each value is the read's multiplicity |
| Frequency.AddCount | src/main.rs:301 | `*entry(k).or_insert(0) += c` adds c to k's count and adds k to the keys |
| Frequency.Merge | src/main.rs:300-302 | merging two maps adds counts key by key over the union of their keys |
| Frequency.TallySnoc | src/main.rs:331 | one more read bumps exactly that read's count in the tally |
| Frequency.TallyAppend | src/main.rs:285-304 | the tally of concatenated reads is the merge of their tallies |
| Frequency.MergeIdentity | src/main.rs:299 | the empty map is the identity of merging |
| Frequency.MergeCommutes | src/main.rs:299 | merging is commutative |
| Frequency.MergeAssociates | src/main.rs:299 | merging is associative |
| Frequency.TotalRemove | src/main.rs:297-304 | the total of a map is one entry plus the total of the rest |
| Frequency.TotalMerge | src/main.rs:297-304 | merging adds totals |
| Frequency.TallyTotal | src/main.rs:331-332 | a tally's counts add up to the number of reads |
| Reduction.MergeAllAppend | src/main.rs:297-304 | folding partial maps splits at any point |
| Reduction.MergeAllPermutation | src/main.rs:297-304 | reordering the partial maps does not change the merged result |
| Reduction.EvaluateIsFold | src/main.rs:297-304 | any merge tree with empty-map leaves evaluates to the fold of its leaves |
| Reduction.ScheduleMatchesFold | src/main.rs:297-304 | any reduce schedule over any arrangement of the partial maps gives the same map |
| Reduction.TotalMergeAll | src/main.rs:297-304 | the merged map's total is the sum of the partial maps' totals |
| Counting.Decode | src/main.rs:251-252 | the reads a stream yields, in order, one per pull |
| Counting.DecodeFailsOnMalformed | src/main.rs:252 | reading fails exactly when some record is malformed |
| Counting.DecodeKeepsOrder | src/main.rs:251-254 | the i-th read is the i-th record's sequence |
| Counting.DecodeFailurePersists | src/main.rs:252 | once a malformed record is met, reading more does not recover |
| Counting.CountSequential | src/main.rs:314-340 | the sequential counter returns the tally of the reads and their number, or the read error |
| Counting.ChunkCount | src/main.rs:264-272 | k full chunks plus a partial one of r reads make ⌈(k·size+r)/size⌉ chunks |
| Counting.ReadChunks | src/main.rs:246-272 | fails iff a record is malformed; otherwise concatenating the chunks gives the reads in order, each chunk is non-empty and at most `size` long, all but the last are full, the chunk count is ⌈n/size⌉, and the total is the number of records |
| Counting.CountChunk | src/main.rs:287-293 | a chunk's local map is the tally of the chunk |
| Counting.MergeInto | src/main.rs:299-303 | adding a map into the accumulator, in any key order, gives their pointwise sum over the union of keys |
| Counting.LocalCounts | src/main.rs:285-294 | one local map per chunk, each the chunk's tally |
| Counting.PartialsMergeToWhole | src/main.rs:285-304 | merging the chunks' tallies gives the tally of all reads |
| Counting.ReducePartials | src/main.rs:297-304 | the reduce returns the fold of the partial maps |
| Counting.CountChunked | src/main.rs:246-310 | the chunked counter returns exactly what the sequential one does |
| Counting.CountSequences | src/main.rs:216-227 | for every chunk size the result is the tally and the read count, and the counts add up to that total |
| Table.InsertByCount | src/main.rs:364 | inserting into a descending list keeps it descending and adds exactly that record |
| Table.SortByCountDesc | src/main.rs:364 | the sort returns a permutation ordered by descending count |
| Table.PrepareRecords | src/main.rs:342-366 | one record per map entry with that entry's count, rpm exactly when requested, sorted by descending count |
| Table.TableHasNoDuplicates | src/main.rs:347-361 | no sequence appears in two rows |
| Table.TableConservation | src/main.rs:347-361 | the rows' counts add up to the map's total |
| Table.EmptyTable | src/main.rs:347-365 | the table is empty exactly when the map is |
| Table.RpmNeverDividesByZero | src/main.rs:350-351 | every rpm of a table built from reads has a positive count and total |
| Table.RpmSumsToOneMillion | src/main.rs:350-351 | with rpm requested, the rows' exact rpm values sum to 1,000,000 |
| Table.ScenarioThreeReads | src/main.rs:342-366 | reads AAA, AAA, CCG give exactly the rows (AAA, 2), (CCG, 1) |
| Output.Extension | src/output.rs:24-31 | a format's extension is the name that selects that format |
| Output.ExtensionNamesFormat | src/output.rs:17-31 | distinct formats have distinct extensions |
| Output.ToLower | src/output.rs:105 | lowering keeps the length and lowers each ASCII letter in place, leaving other characters as they are |
| Output.CompressionOf | src/output.rs:105-112 | a known codec name, in any letter case, selects the codec of that name; any other name selects SNAPPY |
| Output.CodecNameSelects | src/output.rs:105-112 | each codec's name selects that codec |
| Output.CodecSelection | src/output.rs:105-112 | codec choice ignores letter case; a non-default codec is chosen only by its own name; unknown names fall back to SNAPPY |
| Output.CodecExamples | src/output.rs:105-112 | "ZSTD", "Gzip", "None", "lz4" and "" select ZSTD, GZIP, uncompressed, SNAPPY, SNAPPY |
| Output.Schema | src/output.rs:63-70 | sequence (LargeUtf8) and count (UInt64), both non-null, plus rpm (Float64) exactly when the first record has one |
| Output.FirstMismatch | src/output.rs:93 | finds the first record whose rpm presence differs from the wanted one, or reports that none does |
| Output.RpmColumn | src/output.rs:92-95 | the rpm column succeeds iff every record has an rpm, else `unwrap` panics at the first one without |
| Output.Header | src/output.rs:140-145 | the header names the schema's fields: sequence, count, and rpm when the first record has one |
| Output.SaveParquet | src/output.rs:61-125 | fails iff the first record has an rpm and some record lacks one, with the panic at the first such record; otherwise the batch has the schema, passes the batch checks (one array per field, of its type, one value per record) under the named codec, carries each record's rpm in order in the rpm column when there is one, and reads back to the records' sequences and counts in order |
| Output.DataRow | src/output.rs:148-157 | a row has as many fields as the header of a table starting with that record: the sequence, the count's canonical decimal (which parses back to the count), and the formatted rpm when the record has one |
| Output.SaveText | src/output.rs:127-162 | succeeds iff every record agrees with the first on having an rpm, else fails at the first that does not; the rows are the header then one row per record; when counts fit a u64 the file reads back to the records' sequences and counts |
| Output.SaveOutput | src/output.rs:40-59 | Parquet output exactly for the Parquet format, written with the codec the compression name selects; Csv writes with ',' and Tsv with a tab; text formats succeed iff the records are homogeneous; Parquet fails only when the first record has an rpm and a later one lacks it; whenever counts fit a u64, a written file reads back to the records' sequences and counts in order |
| Output.DispatchByFormat | src/output.rs:49-53 | CSV and TSV write the same rows with ',' and a tab; Parquet gets the codec its name selects |
| Output.ParquetIgnoresLaterRpm | src/output.rs:68-95 | if the first record has no rpm, the Parquet output has two columns even when later records carry one |
| Output.TablesAreHomogeneous | src/main.rs:350-354 | records built by `prepare_records` either all have an rpm or none does |
| Output.SavingATableSucceeds | src/output.rs:40-59 | saving a table `prepare_records` built never fails, in any format |
| Output.EmptyTableOutput | src/output.rs:61-161 | no records give a header-only text file and an empty two-column batch |
| Output.ReadBackTextRows | src/output.rs:148-157 | parsing the data rows back, row by row, gives each record's sequence and count in order |
| Pipeline.MultiplicityAtMostLength | src/main.rs:331 | no sequence is counted more often than there are reads |
| Pipeline.TableCountsFit | src/main.rs:342-366 | a table's counts fit in a u64 when the number of reads does |
| Pipeline.ProcessFile | src/main.rs:178-199 | fails exactly on a malformed record; otherwise the output is exactly what `save_output` writes for the sorted table of the reads: Parquet with the selected codec, Csv with ',', Tsv with a tab; it reads back to the table's pairs |

## Left out

- File and console I/O is not modelled: opening the input, `metadata`, creating output files, buffered writes, progress bars and messages. The file length is a parameter.
- The FASTX parser (needletail) is reduced to a sequence of pulls. A malformed record is a `Malformed` pull. `String::from_utf8_lossy` is the identity on the already-decoded `string` sequence.
- Pipeline.ProcessFile: the reader opened by `parse_fastx_file` before the dispatch in `count_sequences` (src/main.rs:221-222) is not modelled. It fails when the file cannot be opened, when the input is empty, and when the first byte of the decompressed input (gzip and the other supported compressions are undone first) is neither '>' nor '@'. In the model an empty stream succeeds with a header-only file or an empty batch, whereas the program reports an error. The FASTX reader is not part of this model.
- Building the rayon pool (src/main.rs:65-70) and the runtime's scheduling are not modelled. The reduce is covered by the schedule lemmas, for every pairing and order.
- The output file name built in `process_file` (src/main.rs:164-177) and the CLI parsing are left out. They are string plumbing around the core.
- rpm is an exact ratio `Ppm(count, total)`. The `f64` division and its rounding are not modelled. The `{:.2}` rendering is passed in as `formatRpm`.
- The Parquet and CSV byte encodings are represented by their logical content, an `OutputFile`. CSV quoting of fields is not modelled: it is an encoding detail that a CSV reader undoes, and `OutputFile` holds the fields as a reader gets them back.
- `ToLower` lowers ASCII letters only. The one non-ASCII character that `to_lowercase` maps to ASCII is the Kelvin sign, which becomes 'k'. No codec name contains a 'k', so the chosen codec is the same.
- Counting.CountSequences: the u64 counters are unbounded naturals, so a wrap-around after 2^64 reads is not modelled.
- Output.SaveOutput: the read-back promise requires counts up to 2^64 − 1, because the text reader parses a u64. `Pipeline.ProcessFile` meets that whenever the file has at most that many records.
- `usize` is taken to be 64 bits wide (`USIZE_MAX = U64_MAX`). On a 32-bit target a RAYON_NUM_THREADS or PARALLEL value above 2^32 − 1 fails to parse, which the model does not reflect.
- `sort_unstable_by` orders equal counts arbitrarily. The model's sort is one such order, and `Table.PrepareRecords` promises only the descending order, so it holds for any tie order.

=== FILE: arithmetic.dfy ===
/** Facts about natural-number products shared by the thread budget and the chunk counts. */
module Arithmetic {

  /** A product with a positive factor is at least each of its factors. */
  lemma {:induction false} ProductBounds(q: nat, b: nat)
    requires b >= 1
    ensures q * b >= q
    ensures q >= 1 ==> q * b >= b
    decreases q
  {
    if q > 0 {
      ProductBounds(q - 1, b);
      assert q * b == (q - 1) * b + b;
    }
  }
}

=== FILE: chunk_plan.dfy ===
/**
 * The chunk-size planner (`calculate_chunk_size`): from the input's byte size
 * and the requested chunk size, the number of reads per chunk, where 0 selects
 * the single-threaded counter.
 */
module ChunkPlan {

  /** Assumed average size of one record in bytes. */
  const BYTES_PER_RECORD: nat := 100

  /** Floor on the record estimate. */
  const MIN_ESTIMATE: nat := 100

  /** Every chunk size the automatic planner can choose; 0 means "do not chunk". */
  const AUTO_SIZES: set<nat> := {0, 10_000, 25_000, 50_000, 100_000}

  /** `max(file_size / 100, 100)`: the estimated number of records in the file. */
  function EstimatedRecords(fileSize: nat): (est: nat)
    ensures est >= MIN_ESTIMATE
    ensures est * BYTES_PER_RECORD <= fileSize || est == MIN_ESTIMATE
    ensures fileSize < (est + 1) * BYTES_PER_RECORD
  {
    var est := fileSize / BYTES_PER_RECORD;
    if est < MIN_ESTIMATE then MIN_ESTIMATE else est
  }

  /** Chunk size for an estimated record count, by tier. */
  function TierFor(est: nat): nat {
    if est <= 10_000 then 0
    else if est <= 100_000 then 10_000
    else if est <= 1_000_000 then 25_000
    else if est <= 10_000_000 then 50_000
    else 100_000
  }

  /** A nonzero request is used as given; 0 asks for the automatic tiers. */
  function ChunkSize(fileSize: nat, requested: nat): (size: nat)
    ensures requested > 0 ==> size == requested
    ensures requested == 0 ==> size in AUTO_SIZES
  {
    if requested > 0 then requested else TierFor(EstimatedRecords(fileSize))
  }

  /**
   * The same tiers stated directly on the byte size: the record estimate's
   * thresholds 10,000 / 100,000 / 1,000,000 / 10,000,000 fall at these byte
   * counts because a tier is left only once a further whole record fits.
   */
  function TierForBytes(fileSize: nat): nat {
    if fileSize < 1_000_100 then 0
    else if fileSize < 10_000_100 then 10_000
    else if fileSize < 100_000_100 then 25_000
    else if fileSize < 1_000_000_100 then 50_000
    else 100_000
  }

  /** The two bounds leave exactly one estimate for each file size. */
  lemma EstimateIsUnique(fileSize: nat, est: nat)
    requires est >= MIN_ESTIMATE
    requires est * BYTES_PER_RECORD <= fileSize || est == MIN_ESTIMATE
    requires fileSize < (est + 1) * BYTES_PER_RECORD
    ensures est == EstimatedRecords(fileSize)
  {
  }

  lemma AutoSizeByBytes(fileSize: nat)
    ensures ChunkSize(fileSize, 0) == TierForBytes(fileSize)
  {
    var q := fileSize / BYTES_PER_RECORD;
    assert fileSize == q * 100 + fileSize % 100;
  }

  /** A larger file never gets a smaller automatic chunk size. */
  lemma AutoSizeMonotonic(small: nat, large: nat)
    requires small <= large
    ensures ChunkSize(small, 0) <= ChunkSize(large, 0)
  {
    AutoSizeByBytes(small);
    AutoSizeByBytes(large);
  }

  /** Files below about one megabyte are counted sequentially. */
  lemma SmallFilesAreSequential(fileSize: nat)
    ensures ChunkSize(fileSize, 0) == 0 <==> fileSize < 1_000_100
  {
    AutoSizeByBytes(fileSize);
  }

  /** A 50-byte file is counted sequentially; a 2,000,000-byte file in chunks of 10,000. */
  lemma Examples()
    ensures EstimatedRecords(50) == 100 && ChunkSize(50, 0) == 0
    ensures EstimatedRecords(2_000_000) == 20_000 && ChunkSize(2_000_000, 0) == 10_000
    ensures ChunkSize(50, 7) == 7
  {
  }
}

=== FILE: counting.dfy ===
/**
 * The two counting paths of `count_sequences`: the single-threaded fold used
 * when the planned chunk size is 0, and the chunked path that cuts the reads
 * into fixed-size chunks, counts each chunk into its own map and merges the
 * partial maps. Both agree with `Expected`, the tally of the reads.
 */
module Counting {
  import opened Outcomes
  import opened Frequency
  import opened Reduction
  import Arithmetic

  /** One pull from the sequence reader: a decoded read, or a decoding failure. */
  datatype Pull = Record(sequence: string) | Malformed

  /** "Failed to read record": the only failure once the file is open. */
  datatype CountError = ReadFailed

  /** A frequency map together with the number of reads consumed. */
  datatype Tallied = Tallied(counts: Counts, total: nat)

  /** The chunks of reads and the number of reads they hold. */
  datatype Batched = Batched(chunks: seq<seq<string>>, total: nat)

  /**
   * The reads the reader yields: every record's text in order, or the failure
   * when any pull is malformed (reading stops there and nothing is counted).
   */
  function Decode(stream: seq<Pull>): (r: Result<seq<string>, CountError>)
    ensures r.Success? ==> |r.value| == |stream|
  {
    if |stream| == 0 then Success([])
    else match (Decode(stream[..|stream| - 1]), stream[|stream| - 1])
      case (Success(xs), Record(s)) => Success(xs + [s])
      case _ => Failure(ReadFailed)
  }

  /** What either counter must produce: the tally of the reads and their number. */
  function Expected(stream: seq<Pull>): Result<Tallied, CountError> {
    match Decode(stream)
    case Success(xs) => Success(Tallied(Tally(xs), |xs|))
    case Failure(e) => Failure(e)
  }

  /** Decoding fails exactly when some pull is malformed. */
  lemma {:induction false} DecodeFailsOnMalformed(stream: seq<Pull>)
    ensures Decode(stream).Failure? <==> exists i | 0 <= i < |stream| :: stream[i].Malformed?
  {
    if |stream| > 0 {
      var init := stream[..|stream| - 1];
      DecodeFailsOnMalformed(init);
      if exists i | 0 <= i < |init| :: init[i].Malformed? {
        var i :| 0 <= i < |init| && init[i].Malformed?;
        assert stream[i].Malformed?;
      }
      if exists i | 0 <= i < |stream| :: stream[i].Malformed? {
        var i :| 0 <= i < |stream| && stream[i].Malformed?;
        if i < |init| {
          assert init[i].Malformed?;
        }
      }
    }
  }

  /** A successful decode reads back the records' texts, position by position. */
  lemma {:induction false} DecodeKeepsOrder(stream: seq<Pull>)
    requires Decode(stream).Success?
    ensures forall i | 0 <= i < |stream| :: stream[i] == Record(Decode(stream).value[i])
  {
    if |stream| > 0 {
      DecodeKeepsOrder(stream[..|stream| - 1]);
    }
  }

  lemma DecodeSnoc(stream: seq<Pull>, i: nat)
    requires i < |stream|
    ensures Decode(stream[..i + 1]) == match (Decode(stream[..i]), stream[i])
      case (Success(xs), Record(s)) => Success(xs + [s])
      case _ => Failure(ReadFailed)
  {
    assert stream[..i + 1][..i] == stream[..i];
  }

  /** Once a prefix fails to decode, so does the whole stream. */
  lemma {:induction false} DecodeFailurePersists(stream: seq<Pull>, i: nat)
    requires i <= |stream| && Decode(stream[..i]).Failure?
    ensures Decode(stream).Failure?
    decreases |stream| - i
  {
    if i < |stream| {
      DecodeSnoc(stream, i);
      DecodeFailurePersists(stream, i + 1);
    } else {
      assert stream[..i] == stream;
    }
  }

  /** `count_sequences_sequential`: one map, one pass, bumping each read's entry. */
  method CountSequential(stream: seq<Pull>) returns (r: Result<Tallied, CountError>)
    ensures r == Expected(stream)
  {
    var counts: Counts := map[];
    var total: nat := 0;
    var i := 0;
    while i < |stream|
      invariant 0 <= i <= |stream|
      invariant Decode(stream[..i]).Success?
      invariant counts == Tally(Decode(stream[..i]).value)
      invariant total == i
    {
      DecodeSnoc(stream, i);
      if stream[i].Malformed? {
        DecodeFailurePersists(stream, i + 1);
        return Failure(ReadFailed);
      }
      var s := stream[i].sequence;
      TallySnoc(Decode(stream[..i]).value, s);
      counts := Bump(counts, s);
      total := total + 1;
      i := i + 1;
    }
    assert stream[..i] == stream;
    return Success(Tallied(counts, total));
  }

  /** The concatenation of the chunks, in order. */
  function Flatten(chunks: seq<seq<string>>): seq<string> {
    if |chunks| == 0 then [] else Flatten(chunks[..|chunks| - 1]) + chunks[|chunks| - 1]
  }

  lemma FlattenSnoc(chunks: seq<seq<string>>, c: seq<string>)
    ensures Flatten(chunks + [c]) == Flatten(chunks) + c
  {
    assert (chunks + [c])[..|chunks|] == chunks;
  }

  /** Chunks cut at `size` reads: all full but the last, none empty. */
  predicate ProperChunks(chunks: seq<seq<string>>, size: nat) {
    && (forall i | 0 <= i < |chunks| :: 0 < |chunks[i]| <= size)
    && (forall i | 0 <= i < |chunks| - 1 :: |chunks[i]| == size)
  }

  /** Division by a positive divisor recovers the quotient of any `q * d + rem` with `rem < d`. */
  lemma DivideExactly(q: nat, d: nat, rem: nat)
    requires 0 <= rem < d
    ensures (q * d + rem) / d == q
  {
    var n := q * d + rem;
    var q' := n / d;
    assert n == q' * d + n % d;
    if q' > q {
      assert (q' - q) * d == q' * d - q * d;
      Arithmetic.ProductBounds(q' - q, d);
    } else if q' < q {
      assert (q - q') * d == q * d - q' * d;
      Arithmetic.ProductBounds(q - q', d);
    }
  }

  /** The number of chunks `n` reads fill at `size` reads per chunk: the ceiling of `n / size`. */
  function ChunksFor(n: nat, size: nat): nat
    requires size > 0
  {
    (n + size - 1) / size
  }

  /** `k` full chunks and a partial one of `rest` reads make the ceiling of the quotient. */
  lemma ChunkCount(k: nat, size: nat, rest: nat)
    requires 0 <= rest < size
    ensures ChunksFor(k * size + rest, size) == k + (if rest > 0 then 1 else 0)
  {
    if rest > 0 {
      assert k * size + rest + size - 1 == (k + 1) * size + (rest - 1);
      DivideExactly(k + 1, size, rest - 1);
    } else {
      DivideExactly(k, size, size - 1);
    }
  }

  /** Chunks closed so far: each holds exactly `size` reads. */
  predicate FullChunks(chunks: seq<seq<string>>, size: nat) {
    forall j | 0 <= j < |chunks| :: |chunks[j]| == size
  }

  /** Full chunks hold `size` reads each. */
  lemma {:induction false} FullChunksLength(chunks: seq<seq<string>>, size: nat)
    requires FullChunks(chunks, size)
    ensures |Flatten(chunks)| == |chunks| * size
  {
    if |chunks| > 0 {
      FullChunksLength(chunks[..|chunks| - 1], size);
      assert |chunks| * size == (|chunks| - 1) * size + size;
    }
  }

  /** The first `i` pulls decoded, and their reads are the closed chunks followed by the open one. */
  predicate ReadUpTo(stream: seq<Pull>, i: nat, chunks: seq<seq<string>>, current: seq<string>) {
    && i <= |stream|
    && Decode(stream[..i]).Success?
    && Flatten(chunks) + current == Decode(stream[..i]).value
  }

  /** Pushing the next well-formed read into the open chunk. */
  lemma PushRead(stream: seq<Pull>, i: nat, chunks: seq<seq<string>>, current: seq<string>)
    requires i < |stream| && stream[i].Record?
    requires ReadUpTo(stream, i, chunks, current)
    ensures ReadUpTo(stream, i + 1, chunks, current + [stream[i].sequence])
  {
    DecodeSnoc(stream, i);
  }

  /** Reading stops with a failure at a malformed pull. */
  lemma StopAtMalformed(stream: seq<Pull>, i: nat)
    requires i < |stream| && stream[i].Malformed?
    ensures Decode(stream).Failure?
  {
    DecodeSnoc(stream, i);
    DecodeFailurePersists(stream, i + 1);
  }

  /** Closing a chunk that has reached `size` reads. */
  lemma CloseFullChunk(chunks: seq<seq<string>>, current: seq<string>, size: nat)
    requires FullChunks(chunks, size)
    requires |current| == size
    ensures Flatten(chunks + [current]) == Flatten(chunks) + current
    ensures FullChunks(chunks + [current], size)
  {
    FlattenSnoc(chunks, current);
  }

  /** Keeping a non-empty partial chunk at the end of `n` reads. */
  lemma CloseLastChunk(chunks: seq<seq<string>>, current: seq<string>, size: nat, n: nat)
    requires FullChunks(chunks, size)
    requires |current| < size
    requires n == |Flatten(chunks) + current|
    ensures var out := if |current| > 0 then chunks + [current] else chunks;
      && Flatten(out) == Flatten(chunks) + current
      && ProperChunks(out, size)
      && |out| == ChunksFor(n, size)
  {
    FullChunksLength(chunks, size);
    ChunkCount(|chunks|, size, |current|);
    if |current| > 0 {
      FlattenSnoc(chunks, current);
    } else {
      assert Flatten(chunks) + current == Flatten(chunks);
    }
  }

  /** Closing the open chunk once it holds `size` reads keeps every loop fact. */
  lemma CloseWhenFull(stream: seq<Pull>, i: nat, chunks: seq<seq<string>>, current: seq<string>, size: nat)
    requires ReadUpTo(stream, i, chunks, current) && FullChunks(chunks, size) && |current| == size
    ensures ReadUpTo(stream, i, chunks + [current], []) && FullChunks(chunks + [current], size)
  {
    CloseFullChunk(chunks, current, size);
  }

  /** At the end of the input the chunks, with the partial one kept, are the whole decoded input. */
  lemma FinishChunks(stream: seq<Pull>, chunks: seq<seq<string>>, current: seq<string>, size: nat)
    requires ReadUpTo(stream, |stream|, chunks, current) && FullChunks(chunks, size) && |current| < size
    ensures Decode(stream).Success?
    ensures var out := if |current| > 0 then chunks + [current] else chunks;
      && Flatten(out) == Decode(stream).value
      && ProperChunks(out, size)
      && |out| == ChunksFor(|stream|, size)
  {
    assert Decode(stream).Success? && Flatten(chunks) + current == Decode(stream).value by {
      assert stream[..|stream|] == stream;
    }
    CloseLastChunk(chunks, current, size, |stream|);
  }

  /**
   * The reading stage of the chunked path: push each read into the current
   * chunk, and once it holds `size` reads, close it; a partial last chunk is
   * kept if it is not empty. A malformed pull aborts before any counting.
   */
  method ReadChunks(stream: seq<Pull>, size: nat) returns (r: Result<Batched, CountError>)
    requires size > 0
    ensures r.Failure? <==> Decode(stream).Failure?
    ensures r.Success? ==> Flatten(r.value.chunks) == Decode(stream).value
    ensures r.Success? ==> r.value.total == |stream|
    ensures r.Success? ==> ProperChunks(r.value.chunks, size)
    ensures r.Success? ==> |r.value.chunks| == ChunksFor(|stream|, size)
  {
    var chunks: seq<seq<string>> := [];
    var current: seq<string> := [];
    var total: nat := 0;
    var i := 0;
    while i < |stream|
      invariant ReadUpTo(stream, i, chunks, current)
      invariant FullChunks(chunks, size)
      invariant |current| < size
      invariant total == i
    {
      if stream[i].Malformed? {
        StopAtMalformed(stream, i);
        return Failure(ReadFailed);
      }
      PushRead(stream, i, chunks, current);
      current := current + [stream[i].sequence];
      total := total + 1;
      if |current| >= size {
        CloseWhenFull(stream, i + 1, chunks, current, size);
        chunks := chunks + [current];
        current := [];
      }
      i := i + 1;
    }
    FinishChunks(stream, chunks, current, size);
    if |current| > 0 {
      chunks := chunks + [current];
    }
    return Success(Batched(chunks, total));
  }

  /** The per-chunk count of the parallel map stage: a local map, one bump per read. */
  function CountChunk(chunk: seq<string>): (local: Counts)
    ensures local == Tally(chunk)
  {
    if |chunk| == 0 then map[]
    else
      var init := chunk[..|chunk| - 1];
      var last := chunk[|chunk| - 1];
      assert chunk == init + [last];
      TallySnoc(init, last);
      Bump(CountChunk(init), last)
  }

  /**
   * The combining step of the reduce: add every entry of `m` into `acc`, in the
   * unspecified order in which the hash map yields its entries.
   */
  method MergeInto(acc: Counts, m: Counts) returns (r: Counts)
    ensures r.Keys == acc.Keys + m.Keys
    ensures forall k :: Get(r, k) == Get(acc, k) + Get(m, k)
  {
    r := acc;
    var pending := m.Keys;
    while pending != {}
      invariant pending <= m.Keys
      invariant r.Keys == acc.Keys + (m.Keys - pending)
      invariant forall k :: Get(r, k) == Get(acc, k) + (if k in pending then 0 else Get(m, k))
      decreases pending
    {
      var k :| k in pending;
      r := AddCount(r, k, m[k]);
      pending := pending - {k};
    }
  }

  /** The parallel map stage: one local map per chunk, in chunk order. */
  function LocalCounts(chunks: seq<seq<string>>): (parts: seq<Counts>)
    ensures |parts| == |chunks|
    ensures forall i | 0 <= i < |chunks| :: parts[i] == Tally(chunks[i])
  {
    seq(|chunks|, i requires 0 <= i < |chunks| => CountChunk(chunks[i]))
  }

  /** Merging the per-chunk tallies gives the tally of all the reads. */
  lemma {:induction false} PartialsMergeToWhole(chunks: seq<seq<string>>)
    ensures MergeAll(LocalCounts(chunks)) == Tally(Flatten(chunks))
  {
    if |chunks| == 0 {
      assert Flatten(chunks) == [];
    } else {
      var init := chunks[..|chunks| - 1];
      var last := chunks[|chunks| - 1];
      var parts := LocalCounts(chunks);
      PartialsMergeToWhole(init);
      assert parts[..|parts| - 1] == LocalCounts(init);
      TallyAppend(Flatten(init), last);
    }
  }

  /** The reduce stage, run as a left fold over the partial maps. */
  method ReducePartials(parts: seq<Counts>) returns (merged: Counts)
    ensures merged == MergeAll(parts)
  {
    merged := map[];
    var j := 0;
    while j < |parts|
      invariant 0 <= j <= |parts|
      invariant merged == MergeAll(parts[..j])
    {
      var next := MergeInto(merged, parts[j]);
      CountsExtensional(next, Merge(merged, parts[j]));
      assert parts[..j + 1][..j] == parts[..j];
      merged := next;
      j := j + 1;
    }
    assert parts[..j] == parts;
  }

  /**
   * The chunked path of `count_sequences`: read into chunks, count every chunk
   * into its own map, then merge the maps into one.
   */
  method CountChunked(stream: seq<Pull>, size: nat) returns (r: Result<Tallied, CountError>)
    requires size > 0
    ensures r == Expected(stream)
  {
    var read := ReadChunks(stream, size);
    if read.Failure? {
      return Failure(ReadFailed);
    }
    var chunks := read.value.chunks;
    var merged := ReducePartials(LocalCounts(chunks));
    PartialsMergeToWhole(chunks);
    return Success(Tallied(merged, read.value.total));
  }

  /**
   * `count_sequences`: chunk size 0 selects the sequential fold, anything else
   * the chunked path. The result is the same for every chunk size, and its
   * counts add up to the number of reads.
   */
  method CountSequences(stream: seq<Pull>, size: nat) returns (r: Result<Tallied, CountError>)
    ensures r == Expected(stream)
    ensures r.Success? ==> Total(r.value.counts) == r.value.total
  {
    if size == 0 {
      r := CountSequential(stream);
    } else {
      r := CountChunked(stream, size);
    }
    if r.Success? {
      TallyTotal(Decode(stream).value);
    }
  }
}

=== FILE: decimal.dfy ===
/**
 * Decimal text for unsigned machine integers: `to_string` on a `u64` and
 * `str::parse::<usize>()` / `str::parse::<u64>()` on a 64-bit target.
 */
module Decimal {
  import opened Outcomes

  /** Largest `u64`; `usize` has the same width on the 64-bit targets the tool runs on. */
  const U64_MAX: nat := 0xFFFF_FFFF_FFFF_FFFF
  const USIZE_MAX: nat := U64_MAX

  predicate IsDigit(c: char) {
    '0' <= c <= '9'
  }

  predicate AllDigits(s: string) {
    forall i | 0 <= i < |s| :: IsDigit(s[i])
  }

  function DigitValue(c: char): nat
    requires IsDigit(c)
  {
    c as int - '0' as int
  }

  function DigitChar(d: nat): (c: char)
    requires d < 10
    ensures IsDigit(c) && DigitValue(c) == d
  {
    ('0' as int + d) as char
  }

  /** The number a string of decimal digits denotes, most significant digit first. */
  function DigitsValue(s: string): nat
    requires AllDigits(s)
  {
    if |s| == 0 then 0 else DigitsValue(s[..|s| - 1]) * 10 + DigitValue(s[|s| - 1])
  }

  /** `n.to_string()`: the canonical decimal rendering, without sign or leading zeros. */
  function ToDecimal(n: nat): (s: string)
    ensures |s| >= 1 && AllDigits(s)
    ensures DigitsValue(s) == n
    ensures s[0] == '0' ==> n == 0
    ensures |s| > 1 ==> s[0] != '0'
  {
    if n < 10 then [DigitChar(n)]
    else
      var prefix := ToDecimal(n / 10);
      var s := prefix + [DigitChar(n % 10)];
      assert s[..|s| - 1] == prefix;
      s
  }

  /** The text after one optional leading `+`. */
  function Magnitude(s: string): (m: string)
    ensures |m| <= |s|
  {
    if |s| > 0 && s[0] == '+' then s[1..] else s
  }

  /**
   * `FromStr` for an unsigned integer type whose largest value is `max`: one
   * optional leading `+`, then at least one ASCII digit and nothing else; a
   * value above `max` is an overflow error. A leading `-` is an invalid digit.
   */
  function ParseUnsigned(s: string, max: nat): (r: Option<nat>)
    ensures r.Some? <==> |Magnitude(s)| > 0 && AllDigits(Magnitude(s)) && DigitsValue(Magnitude(s)) <= max
    ensures r.Some? ==> r.value == DigitsValue(Magnitude(s)) && r.value <= max
    ensures r.Some? ==> |s| >= 1 && (IsDigit(s[0]) || s[0] == '+')
  {
    var digits := Magnitude(s);
    if |digits| == 0 || !AllDigits(digits) then None
    else if DigitsValue(digits) > max then None
    else Some(DigitsValue(digits))
  }

  /** Reading back what `to_string` wrote gives the number, as long as it fits the type. */
  lemma ParseToDecimal(n: nat, max: nat)
    requires n <= max
    ensures ParseUnsigned(ToDecimal(n), max) == Some(n)
  {
  }

  /** A value above the type's range is rejected rather than wrapped. */
  lemma ParseRejectsOverflow(n: nat, max: nat)
    requires n > max
    ensures ParseUnsigned(ToDecimal(n), max) == None
  {
  }

  /** Worked examples of the accepted and rejected spellings. */
  lemma ParseExamples()
    ensures ParseUnsigned("4", USIZE_MAX) == Some(4)
    ensures ParseUnsigned("+4", USIZE_MAX) == Some(4)
    ensures ParseUnsigned("007", USIZE_MAX) == Some(7)
    ensures ParseUnsigned("", USIZE_MAX) == None
    ensures ParseUnsigned("+", USIZE_MAX) == None
    ensures ParseUnsigned("-1", USIZE_MAX) == None
    ensures ParseUnsigned(" 4", USIZE_MAX) == None
  {
    assert "+4"[1..] == "4";
    assert "007"[..2] == "00" && "00"[..1] == "0";
    assert !IsDigit("-1"[0]);
    assert !IsDigit(" 4"[0]);
  }
}

=== FILE: frequency.dfy ===
/**
 * Frequency maps: sequence text to occurrence count. `Tally` is the reference
 * meaning (the multiset of the reads, as a map); `AddCount` and `Merge` are the
 * two updates the counters perform; `Total` is the sum of all counts.
 */
module Frequency {

  type Counts = map<string, nat>

  /** The count of `k`, 0 when absent (`entry(k).or_insert(0)`). */
  function Get(m: Counts, k: string): nat {
    if k in m then m[k] else 0
  }

  /** Each distinct read of `xs` with its number of occurrences. */
  function Tally(xs: seq<string>): (m: Counts)
    ensures m.Keys == set s | s in xs
    ensures forall s :: Get(m, s) == multiset(xs)[s]
  {
    map s | s in xs :: multiset(xs)[s]
  }

  /** `*m.entry(k).or_insert(0) += c`. */
  function AddCount(m: Counts, k: string, c: nat): (r: Counts)
    ensures r.Keys == m.Keys + {k}
    ensures Get(r, k) == Get(m, k) + c
    ensures forall j | j != k :: Get(r, j) == Get(m, j)
  {
    m[k := Get(m, k) + c]
  }

  /** One more occurrence of `k`. */
  function Bump(m: Counts, k: string): Counts {
    AddCount(m, k, 1)
  }

  /**
   * Adding every entry of `m` into `acc`: keys are united and counts added.
   * This is what the reduce step does with two partial maps.
   */
  function Merge(acc: Counts, m: Counts): (r: Counts)
    ensures r.Keys == acc.Keys + m.Keys
    ensures forall k :: Get(r, k) == Get(acc, k) + Get(m, k)
  {
    map k | k in acc.Keys + m.Keys :: Get(acc, k) + Get(m, k)
  }

  /** Sum of all counts in a map. */
  ghost function Total(m: Counts): nat
    decreases m.Keys
  {
    if m == map[] then 0
    else
      var k :| k in m;
      m[k] + Total(m - {k})
  }

  /** Two maps with the same `Get` everywhere are equal. */
  lemma CountsExtensional(a: Counts, b: Counts)
    requires forall k :: Get(a, k) == Get(b, k)
    requires a.Keys == b.Keys
    ensures a == b
  {
    forall k | k in a
      ensures a[k] == b[k]
    {
      assert Get(a, k) == Get(b, k);
    }
  }

  /** Counting one more read bumps its entry. */
  lemma TallySnoc(xs: seq<string>, x: string)
    ensures Tally(xs + [x]) == Bump(Tally(xs), x)
  {
    var r := xs + [x];
    assert multiset(r) == multiset(xs) + multiset{x};
    assert (set s | s in r) == (set s | s in xs) + {x};
    CountsExtensional(Tally(r), Bump(Tally(xs), x));
  }

  /** Counting a concatenation is merging the counts of the parts. */
  lemma TallyAppend(xs: seq<string>, ys: seq<string>)
    ensures Tally(xs + ys) == Merge(Tally(xs), Tally(ys))
  {
    var r := xs + ys;
    assert multiset(r) == multiset(xs) + multiset(ys);
    assert (set s | s in r) == (set s | s in xs) + (set s | s in ys);
    CountsExtensional(Tally(r), Merge(Tally(xs), Tally(ys)));
  }

  lemma MergeIdentity(m: Counts)
    ensures Merge(map[], m) == m && Merge(m, map[]) == m
  {
    CountsExtensional(Merge(map[], m), m);
    CountsExtensional(Merge(m, map[]), m);
  }

  lemma MergeCommutes(a: Counts, b: Counts)
    ensures Merge(a, b) == Merge(b, a)
  {
    CountsExtensional(Merge(a, b), Merge(b, a));
  }

  lemma MergeAssociates(a: Counts, b: Counts, c: Counts)
    ensures Merge(Merge(a, b), c) == Merge(a, Merge(b, c))
  {
    CountsExtensional(Merge(Merge(a, b), c), Merge(a, Merge(b, c)));
  }

  /** `Total` does not depend on which key is taken out first. */
  lemma {:induction false} TotalRemove(m: Counts, k: string)
    requires k in m
    ensures Total(m) == m[k] + Total(m - {k})
    decreases m.Keys
  {
    var j :| j in m && Total(m) == m[j] + Total(m - {j});
    if j != k {
      var mj := m - {j};
      var mk := m - {k};
      TotalRemove(mj, k);
      TotalRemove(mk, j);
      assert mj - {k} == mk - {j};
    }
  }

  /** Adding `c` to one entry adds `c` to the total. */
  lemma TotalAddCount(m: Counts, k: string, c: nat)
    ensures Total(AddCount(m, k, c)) == Total(m) + c
  {
    var r := AddCount(m, k, c);
    TotalRemove(r, k);
    if k in m {
      TotalRemove(m, k);
      assert r - {k} == m - {k};
    } else {
      assert r - {k} == m;
    }
  }

  /** Merging `b` is merging all of `b` but `k`, then adding `k`'s count. */
  lemma MergePeel(a: Counts, b: Counts, k: string)
    requires k in b
    ensures Merge(a, b) == AddCount(Merge(a, b - {k}), k, b[k])
  {
    CountsExtensional(Merge(a, b), AddCount(Merge(a, b - {k}), k, b[k]));
  }

  /** Merging two maps adds their totals: the merge loses and invents no count. */
  lemma {:induction false} TotalMerge(a: Counts, b: Counts)
    ensures Total(Merge(a, b)) == Total(a) + Total(b)
    decreases b.Keys
  {
    if b == map[] {
      MergeIdentity(a);
    } else {
      var k :| k in b;
      TotalRemove(b, k);
      TotalMerge(a, b - {k});
      MergePeel(a, b, k);
      TotalAddCount(Merge(a, b - {k}), k, b[k]);
    }
  }

  /** The counts of a tally add up to the number of reads. */
  lemma {:induction false} TallyTotal(xs: seq<string>)
    ensures Total(Tally(xs)) == |xs|
  {
    if |xs| == 0 {
      assert Tally(xs) == map[];
    } else {
      var init := xs[..|xs| - 1];
      var x := xs[|xs| - 1];
      assert xs == init + [x];
      TallyTotal(init);
      TallySnoc(init, x);
      TotalAddCount(Tally(init), x, 1);
    }
  }
}

=== FILE: outcomes.dfy ===
/** Failure-compatible wrappers shared by the whole model. */
module Outcomes {

  /** An optional value: an unset environment variable, a failed parse. */
  datatype Option<+T> = None | Some(value: T)

  /** The value of a computation that may fail with an error of type `E`. */
  datatype Result<+T, +E> = Success(value: T) | Failure(error: E)
}

=== FILE: output.dfy ===
/**
 * The serializer (`output.rs`): the output format and its file extension, the
 * dispatch to the columnar or the delimited-text writer, the Parquet schema
 * and columns, the compression codec chosen by name, and the rows of the
 * delimited text. Encoding bytes, quoting and file creation are not modelled:
 * a written file is represented by its logical content, an `OutputFile`.
 */
module Output {
  import opened Outcomes
  import Decimal
  import opened Table

  datatype OutputFormat = Parquet | Csv | Tsv

  /** `OutputFormat::extension`. */
  function Extension(format: OutputFormat): (ext: string)
    ensures ParseFormat(ext) == Some(format)
  {
    match format
    case Parquet => "parquet"
    case Csv => "csv"
    case Tsv => "tsv"
  }

  /**
   * The `--format` values the derived value parser accepts: each variant's
   * name in lower case, matched exactly.
   */
  function ParseFormat(name: string): Option<OutputFormat> {
    if name == "parquet" then Some(Parquet)
    else if name == "csv" then Some(Csv)
    else if name == "tsv" then Some(Tsv)
    else None
  }

  /** Extensions tell formats apart. */
  lemma ExtensionNamesFormat(format: OutputFormat, other: OutputFormat)
    ensures Extension(format) == Extension(other) ==> format == other
  {
    assert ParseFormat(Extension(other)) == Some(other);
  }

  // ---------------------------------------------------------------------------
  // Compression

  /** The Parquet block codecs the writer can be configured with. */
  datatype Codec = Snappy | Gzip | Brotli | Zstd | Uncompressed

  function LowerChar(c: char): char {
    if 'A' <= c <= 'Z' then (c as int + 32) as char else c
  }

  /**
   * `str::to_lowercase`, on the ASCII letters. Outside ASCII only the Kelvin
   * sign lowers to an ASCII letter ('k'), and no codec name contains a 'k',
   * so the codec chosen is the same as with full Unicode lowering.
   */
  function ToLower(s: string): (r: string)
    ensures |r| == |s|
    ensures forall i | 0 <= i < |s| :: r[i] == LowerChar(s[i])
  {
    if |s| == 0 then [] else [LowerChar(s[0])] + ToLower(s[1..])
  }

  /** The compression setting of `save_parquet`: known names in any case, SNAPPY otherwise. */
  function CompressionOf(name: string): (codec: Codec)
    ensures KnownCodecName(ToLower(name)) ==> CodecName(codec) == ToLower(name)
    ensures !KnownCodecName(ToLower(name)) ==> codec == Snappy
  {
    var lower := ToLower(name);
    if lower == "snappy" then Snappy
    else if lower == "gzip" then Gzip
    else if lower == "brotli" then Brotli
    else if lower == "zstd" then Zstd
    else if lower == "none" then Uncompressed
    else Snappy
  }

  /** The name that selects a codec. */
  function CodecName(codec: Codec): string {
    match codec
    case Snappy => "snappy"
    case Gzip => "gzip"
    case Brotli => "brotli"
    case Zstd => "zstd"
    case Uncompressed => "none"
  }

  predicate KnownCodecName(lower: string) {
    lower in {"snappy", "gzip", "brotli", "zstd", "none"}
  }

  lemma LowerIdempotent(s: string)
    ensures ToLower(ToLower(s)) == ToLower(s)
  {
  }

  lemma CodecNameIsLower(codec: Codec)
    ensures ToLower(CodecName(codec)) == CodecName(codec)
  {
    var n := CodecName(codec);
    assert forall i | 0 <= i < |n| :: !('A' <= n[i] <= 'Z');
  }

  /** Every codec is selected by its name. */
  lemma CodecNameSelects(codec: Codec)
    ensures CompressionOf(CodecName(codec)) == codec
  {
    CodecNameIsLower(codec);
  }

  /**
   * A codec other than the fallback is selected only by its own name, up to
   * letter case; any other name falls back to SNAPPY without an error; letter
   * case never matters.
   */
  lemma CodecSelection(name: string, codec: Codec)
    ensures CompressionOf(name) == codec && codec != Snappy ==> ToLower(name) == CodecName(codec)
    ensures !KnownCodecName(ToLower(name)) ==> CompressionOf(name) == Snappy
    ensures CompressionOf(name) == CompressionOf(ToLower(name))
  {
    LowerIdempotent(name);
  }

  lemma CodecExamples()
    ensures CompressionOf("ZSTD") == Zstd
    ensures CompressionOf("Gzip") == Gzip
    ensures CompressionOf("None") == Uncompressed
    ensures CompressionOf("lz4") == Snappy
    ensures CompressionOf("") == Snappy
  {
    assert ToLower("ZSTD") == "zstd";
    assert ToLower("Gzip") == "gzip";
    assert ToLower("None") == "none";
    assert ToLower("lz4") == "lz4";
  }

  // ---------------------------------------------------------------------------
  // Schema and columns

  datatype DataType = LargeUtf8 | UInt64 | Float64

  datatype Field = Field(name: string, dataType: DataType, nullable: bool)

  const SEQUENCE_FIELD := Field("sequence", LargeUtf8, false)
  const COUNT_FIELD := Field("count", UInt64, false)
  const RPM_FIELD := Field("rpm", Float64, false)

  /** Whether the output carries an rpm column: decided by the first record alone. */
  predicate HasRpm(records: seq<SequenceRecord>) {
    |records| > 0 && records[0].rpm.Some?
  }

  /** Either all records carry an rpm or none does. */
  predicate Homogeneous(records: seq<SequenceRecord>) {
    forall i | 0 <= i < |records| :: records[i].rpm.Some? == HasRpm(records)
  }

  /** The Parquet schema: sequence, count, and rpm when the first record has one. */
  function Schema(records: seq<SequenceRecord>): (fields: seq<Field>)
    ensures |fields| == (if HasRpm(records) then 3 else 2)
    ensures fields[0] == SEQUENCE_FIELD && fields[1] == COUNT_FIELD
    ensures HasRpm(records) ==> fields[2] == RPM_FIELD
  {
    [SEQUENCE_FIELD, COUNT_FIELD] + if HasRpm(records) then [RPM_FIELD] else []
  }

  /** An Arrow array: its element type and its values. */
  datatype Column = Utf8Column(texts: seq<string>) | UInt64Column(values: seq<nat>) | Float64Column(rpms: seq<Ppm>)

  function ColumnType(column: Column): DataType {
    match column
    case Utf8Column(_) => LargeUtf8
    case UInt64Column(_) => UInt64
    case Float64Column(_) => Float64
  }

  function ColumnLength(column: Column): nat {
    match column
    case Utf8Column(t) => |t|
    case UInt64Column(v) => |v|
    case Float64Column(p) => |p|
  }

  /** `RecordBatch::try_new`'s checks: one array per field, of the field's type, all of one length. */
  predicate BatchValid(schema: seq<Field>, columns: seq<Column>, rows: nat) {
    && |schema| == |columns|
    && (forall i | 0 <= i < |columns| :: ColumnType(columns[i]) == schema[i].dataType)
    && (forall i | 0 <= i < |columns| :: ColumnLength(columns[i]) == rows)
  }

  /** The ways saving can stop. */
  datatype SaveError =
    | RpmUnwrapPanic(index: nat)  // `r.rpm.unwrap()` on a record without rpm aborts the process
    | UnequalLengths(index: nat)  // the text writer refuses a row whose field count differs from the header's

  /**
   * The first record at or after `from` whose having an rpm differs from
   * `wantRpm`, if any.
   */
  function FirstMismatch(records: seq<SequenceRecord>, wantRpm: bool, from: nat): (r: Option<nat>)
    requires from <= |records|
    ensures r.None? ==> forall i | from <= i < |records| :: records[i].rpm.Some? == wantRpm
    ensures r.Some? ==> from <= r.value < |records| && records[r.value].rpm.Some? != wantRpm
    ensures r.Some? ==> forall i | from <= i < r.value :: records[i].rpm.Some? == wantRpm
    decreases |records| - from
  {
    if from == |records| then None
    else if records[from].rpm.Some? != wantRpm then Some(from)
    else FirstMismatch(records, wantRpm, from + 1)
  }

  /** The sequence array, in record order. */
  function SequenceColumn(records: seq<SequenceRecord>): seq<string> {
    seq(|records|, i requires 0 <= i < |records| => records[i].sequence)
  }

  /** The count array, in record order. */
  function CountColumn(records: seq<SequenceRecord>): seq<nat> {
    seq(|records|, i requires 0 <= i < |records| => records[i].count)
  }

  /** `records.iter().map(|r| r.rpm.unwrap())`: panics at the first record without rpm. */
  function RpmColumn(records: seq<SequenceRecord>): (r: Result<seq<Ppm>, SaveError>)
    ensures r.Success? <==> forall i | 0 <= i < |records| :: records[i].rpm.Some?
    ensures r.Success? ==> |r.value| == |records|
    ensures r.Success? ==> forall i | 0 <= i < |records| :: Some(r.value[i]) == records[i].rpm
    ensures r.Failure? ==> r.error == RpmUnwrapPanic(FirstMismatch(records, true, 0).value)
  {
    match FirstMismatch(records, true, 0)
    case Some(j) => Failure(RpmUnwrapPanic(j))
    case None => Success(seq(|records|, i requires 0 <= i < |records| => records[i].rpm.value))
  }

  /**
   * `save_parquet` up to the bytes: the schema, the arrays and the codec the
   * writer is given. It fails only when the first record has an rpm and a
   * later one lacks it; a successful batch passes `RecordBatch::try_new`'s
   * checks and reads back to the records' sequences and counts.
   */
  function SaveParquet(records: seq<SequenceRecord>, compression: string): (r: Result<OutputFile, SaveError>)
    ensures r.Success? <==> !HasRpm(records) || forall i | 0 <= i < |records| :: records[i].rpm.Some?
    ensures r.Failure? ==> r.error == RpmUnwrapPanic(FirstMismatch(records, true, 0).value)
    ensures r.Success? ==> r.value.ParquetFile? && r.value.schema == Schema(records)
                           && r.value.codec == CompressionOf(compression)
    ensures r.Success? ==> BatchValid(r.value.schema, r.value.columns, |records|)
    ensures r.Success? && HasRpm(records) ==>
              (r.value.columns[2].Float64Column?
               && forall i | 0 <= i < |records| :: Some(r.value.columns[2].rpms[i]) == records[i].rpm)
    ensures r.Success? ==> ReadBack(r.value) == Some(Pairs(records))
  {
    var base := [Utf8Column(SequenceColumn(records)), UInt64Column(CountColumn(records))];
    var codec := CompressionOf(compression);
    if HasRpm(records) then
      match RpmColumn(records)
      case Failure(e) => Failure(e)
      case Success(rpms) =>
        ParquetReadBack(records, [Float64Column(rpms)], Schema(records), codec);
        Success(ParquetFile(Schema(records), base + [Float64Column(rpms)], codec))
    else
      ParquetReadBack(records, [], Schema(records), codec);
      assert base + [] == base;
      Success(ParquetFile(Schema(records), base, codec))
  }

  // ---------------------------------------------------------------------------
  // Delimited text

  /** The logical content of a written file. */
  datatype OutputFile =
    | ParquetFile(schema: seq<Field>, columns: seq<Column>, codec: Codec)
    | DelimitedFile(delimiter: char, rows: seq<seq<string>>)

  /** The header row of the text formats: the names of the Parquet schema's fields. */
  function Header(records: seq<SequenceRecord>): (header: seq<string>)
    ensures |header| == |Schema(records)|
    ensures forall i | 0 <= i < |header| :: header[i] == Schema(records)[i].name
  {
    if HasRpm(records) then ["sequence", "count", "rpm"] else ["sequence", "count"]
  }

  /**
   * One data row: the sequence, the count in decimal, and the rpm as rendered by
   * `formatRpm` (two decimals in the source) when the record has one. The row
   * has as many fields as the header a table starting with this record gets,
   * and its count field parses back to the count.
   */
  function DataRow(record: SequenceRecord, formatRpm: Ppm -> string): (row: seq<string>)
    ensures |row| == |Header([record])| && row[0] == record.sequence
    ensures row[1] == Decimal.ToDecimal(record.count)
    ensures record.count <= Decimal.U64_MAX ==> Decimal.ParseUnsigned(row[1], Decimal.U64_MAX) == Some(record.count)
    ensures record.rpm.Some? ==> row[2] == formatRpm(record.rpm.value)
  {
    match record.rpm
    case Some(p) => [record.sequence, Decimal.ToDecimal(record.count), formatRpm(p)]
    case None => [record.sequence, Decimal.ToDecimal(record.count)]
  }

  /** The data rows of the text formats, one per record in order. */
  function TextRows(records: seq<SequenceRecord>, formatRpm: Ppm -> string): seq<seq<string>> {
    seq(|records|, i requires 0 <= i < |records| => DataRow(records[i], formatRpm))
  }

  /**
   * `save_csv`: the header row, then one row per record in order. The text
   * writer refuses, at the first offending record, a row whose field count
   * differs from the header's.
   */
  function SaveText(records: seq<SequenceRecord>, delimiter: char, formatRpm: Ppm -> string)
    : (r: Result<OutputFile, SaveError>)
    ensures r.Success? <==> Homogeneous(records)
    ensures r.Failure? ==> r.error == UnequalLengths(FirstMismatch(records, HasRpm(records), 0).value)
    ensures r.Success? ==> r.value.DelimitedFile? && r.value.delimiter == delimiter
    ensures r.Success? ==> |r.value.rows| == |records| + 1 && r.value.rows[0] == Header(records)
    ensures r.Success? ==> forall i | 0 <= i < |records| :: r.value.rows[i + 1] == DataRow(records[i], formatRpm)
    ensures r.Success? && CountsFitU64(records) ==> ReadBack(r.value) == Some(Pairs(records))
  {
    match FirstMismatch(records, HasRpm(records), 0)
    case Some(j) => Failure(UnequalLengths(j))
    case None =>
      var file := DelimitedFile(delimiter, [Header(records)] + TextRows(records, formatRpm));
      assert CountsFitU64(records) ==> ReadBack(file) == Some(Pairs(records)) by {
        if CountsFitU64(records) {
          ReadBackTextRows(records, formatRpm);
          assert file.rows[1..] == TextRows(records, formatRpm);
        }
      }
      Success(file)
  }

  /**
   * `save_output`: Parquet to the columnar writer, Csv and Tsv to the text
   * writer with ',' and a tab. Whatever the format, the file reads back to the
   * records' sequences and counts in order.
   */
  function SaveOutput(records: seq<SequenceRecord>, format: OutputFormat, compression: string,
                      formatRpm: Ppm -> string): (r: Result<OutputFile, SaveError>)
    ensures r.Success? ==> (r.value.ParquetFile? <==> format == Parquet)
    ensures r.Success? && r.value.ParquetFile? ==> r.value.codec == CompressionOf(compression)
    ensures r.Success? && r.value.DelimitedFile? ==> r.value.delimiter == (if format == Csv then ',' else '\t')
    ensures format != Parquet ==> (r.Success? <==> Homogeneous(records))
    ensures format == Parquet ==> (r.Success? <==> !HasRpm(records) || forall i | 0 <= i < |records| :: records[i].rpm.Some?)
    ensures r.Success? && CountsFitU64(records) ==> ReadBack(r.value) == Some(Pairs(records))
  {
    match format
    case Parquet => SaveParquet(records, compression)
    case Csv => SaveText(records, ',', formatRpm)
    case Tsv => SaveText(records, '\t', formatRpm)
  }

  // ---------------------------------------------------------------------------
  // Properties

  /** Csv and Tsv differ only in the separator; Parquet always gets the named codec. */
  lemma DispatchByFormat(records: seq<SequenceRecord>, compression: string, formatRpm: Ppm -> string)
    ensures var csv := SaveOutput(records, Csv, compression, formatRpm);
      var tsv := SaveOutput(records, Tsv, compression, formatRpm);
      && csv.Success? == tsv.Success?
      && (csv.Success? ==> csv.value.delimiter == ',' && tsv.value.delimiter == '\t'
                           && csv.value.rows == tsv.value.rows)
    ensures var pq := SaveOutput(records, Parquet, compression, formatRpm);
      pq.Success? ==> pq.value.ParquetFile? && pq.value.codec == CompressionOf(compression)
  {
  }

  /**
   * When the first record has no rpm, the Parquet output has no rpm column even
   * if later records carry one: they are written without it.
   */
  lemma ParquetIgnoresLaterRpm(records: seq<SequenceRecord>, compression: string)
    requires |records| > 0 && records[0].rpm.None?
    ensures SaveParquet(records, compression).Success?
    ensures |SaveParquet(records, compression).value.columns| == 2
  {
  }

  /** Tables made by the builder are homogeneous. */
  lemma TablesAreHomogeneous(rs: seq<SequenceRecord>, counts: Frequency.Counts, total: nat, includeRpm: bool)
    requires EntriesOf(rs, counts, total, includeRpm)
    ensures Homogeneous(rs)
    ensures rs != [] ==> (HasRpm(rs) <==> includeRpm)
  {
    forall i | 0 <= i < |rs|
      ensures rs[i].rpm.Some? == includeRpm
    {
      assert rs[i] in rs;
    }
  }

  /** Saving a table the builder made never fails, in any format. */
  lemma SavingATableSucceeds(rs: seq<SequenceRecord>, counts: Frequency.Counts, total: nat, includeRpm: bool,
                             format: OutputFormat, compression: string, formatRpm: Ppm -> string)
    requires EntriesOf(rs, counts, total, includeRpm)
    ensures SaveOutput(rs, format, compression, formatRpm).Success?
  {
    TablesAreHomogeneous(rs, counts, total, includeRpm);
    if format == Parquet && HasRpm(rs) {
      assert forall i | 0 <= i < |rs| :: rs[i].rpm.Some?;
    }
  }

  /** An empty table gives a header-only text file and a two-column, zero-row Parquet batch. */
  lemma EmptyTableOutput(compression: string, formatRpm: Ppm -> string)
    ensures SaveText([], ',', formatRpm) == Success(DelimitedFile(',', [["sequence", "count"]]))
    ensures SaveParquet([], compression)
      == Success(ParquetFile([SEQUENCE_FIELD, COUNT_FIELD], [Utf8Column([]), UInt64Column([])], CompressionOf(compression)))
  {
    var text := SaveText([], ',', formatRpm);
    assert text.value.rows == [["sequence", "count"]];
    assert SequenceColumn([]) == [] && CountColumn([]) == [];
    assert Schema([]) == [SEQUENCE_FIELD, COUNT_FIELD];
  }

  // ---------------------------------------------------------------------------
  // Reading an output back

  /** The (sequence, count) pairs of the records, in order. */
  function Pairs(records: seq<SequenceRecord>): seq<(string, nat)> {
    seq(|records|, i requires 0 <= i < |records| => (records[i].sequence, records[i].count))
  }

  /** Parse the data rows of a text file: the first field as the sequence, the second as a `u64`. */
  function ReadBackRows(rows: seq<seq<string>>): Option<seq<(string, nat)>> {
    if |rows| == 0 then Some([])
    else
      var row := rows[|rows| - 1];
      match ReadBackRows(rows[..|rows| - 1])
      case None => None
      case Some(pairs) =>
        if |row| < 2 then None
        else match Decimal.ParseUnsigned(row[1], Decimal.U64_MAX)
          case None => None
          case Some(n) => Some(pairs + [(row[0], n)])
  }

  /** Read the pairs back from a written file. */
  function ReadBack(file: OutputFile): Option<seq<(string, nat)>> {
    match file
    case ParquetFile(_, columns, _) =>
      if |columns| >= 2 && columns[0].Utf8Column? && columns[1].UInt64Column?
         && |columns[0].texts| == |columns[1].values|
      then Some(seq(|columns[0].texts|, i requires 0 <= i < |columns[0].texts| =>
                      (columns[0].texts[i], columns[1].values[i])))
      else None
    case DelimitedFile(_, rows) =>
      if |rows| == 0 then None else ReadBackRows(rows[1..])
  }

  predicate CountsFitU64(records: seq<SequenceRecord>) {
    forall i | 0 <= i < |records| :: records[i].count <= Decimal.U64_MAX
  }

  /** The leading sequence and count arrays of a batch read back to the records' pairs. */
  lemma ParquetReadBack(records: seq<SequenceRecord>, extra: seq<Column>, schema: seq<Field>, codec: Codec)
    ensures ReadBack(ParquetFile(schema, [Utf8Column(SequenceColumn(records)), UInt64Column(CountColumn(records))] + extra, codec))
      == Some(Pairs(records))
  {
    var columns := [Utf8Column(SequenceColumn(records)), UInt64Column(CountColumn(records))] + extra;
    assert columns[0].texts == SequenceColumn(records) && columns[1].values == CountColumn(records);
    var read := seq(|records|, i requires 0 <= i < |records| => (columns[0].texts[i], columns[1].values[i]));
    assert read == Pairs(records);
  }

  /** Reading one more well-formed row appends its pair. */
  lemma ReadBackStep(rows: seq<seq<string>>, row: seq<string>, pairs: seq<(string, nat)>, n: nat)
    requires ReadBackRows(rows) == Some(pairs)
    requires |row| >= 2 && Decimal.ParseUnsigned(row[1], Decimal.U64_MAX) == Some(n)
    ensures ReadBackRows(rows + [row]) == Some(pairs + [(row[0], n)])
  {
    assert (rows + [row])[..|rows|] == rows;
  }

  lemma TextRowsSnoc(records: seq<SequenceRecord>, formatRpm: Ppm -> string)
    requires |records| > 0
    ensures TextRows(records, formatRpm)
      == TextRows(records[..|records| - 1], formatRpm) + [DataRow(records[|records| - 1], formatRpm)]
  {
  }

  lemma PairsSnoc(records: seq<SequenceRecord>)
    requires |records| > 0
    ensures Pairs(records) == Pairs(records[..|records| - 1]) + [(records[|records| - 1].sequence, records[|records| - 1].count)]
  {
  }

  /** Parsing the data rows back gives each record's sequence and count, in order. */
  lemma {:induction false} ReadBackTextRows(records: seq<SequenceRecord>, formatRpm: Ppm -> string)
    requires CountsFitU64(records)
    ensures ReadBackRows(TextRows(records, formatRpm)) == Some(Pairs(records))
  {
    if |records| == 0 {
      assert TextRows(records, formatRpm) == [];
      assert Pairs(records) == [];
    } else {
      var init := records[..|records| - 1];
      var last := records[|records| - 1];
      assert CountsFitU64(init) by {
        assert forall i | 0 <= i < |init| :: init[i] == records[i];
      }
      ReadBackTextRows(init, formatRpm);
      assert last.count <= Decimal.U64_MAX;
      ReadBackStep(TextRows(init, formatRpm), DataRow(last, formatRpm), Pairs(init), last.count);
      TextRowsSnoc(records, formatRpm);
      PairsSnoc(records);
    }
  }
}

=== FILE: pipeline.dfy ===
/**
 * One input file end to end (`process_file`): choose the chunk size from the
 * file's length, count the reads, build the table and hand it to the writer.
 * The output path, the timing and the console messages are not modelled.
 */
module Pipeline {
  import opened Outcomes
  import opened Frequency
  import Decimal
  import ChunkPlan
  import Counting
  import opened Table
  import opened Output

  /** No sequence occurs more often than there are reads. */
  lemma {:induction false} MultiplicityAtMostLength(xs: seq<string>, s: string)
    ensures multiset(xs)[s] <= |xs|
  {
    if |xs| > 0 {
      var init := xs[..|xs| - 1];
      MultiplicityAtMostLength(init, s);
      assert xs == init + [xs[|xs| - 1]];
      assert multiset(xs) == multiset(init) + multiset{xs[|xs| - 1]};
    }
  }

  /** The counts of a table over `xs` fit in a `u64` whenever the number of reads does. */
  lemma TableCountsFit(rs: seq<SequenceRecord>, xs: seq<string>, includeRpm: bool)
    requires EntriesOf(rs, Tally(xs), |xs|, includeRpm)
    requires |xs| <= Decimal.U64_MAX
    ensures CountsFitU64(rs)
  {
    forall i | 0 <= i < |rs|
      ensures rs[i].count <= Decimal.U64_MAX
    {
      assert rs[i] in rs;
      MultiplicityAtMostLength(xs, rs[i].sequence);
    }
  }

  /**
   * `process_file` from the file's length on. It fails exactly when the input
   * holds a malformed record. Otherwise the records are the table of the reads,
   * in descending count order, nothing is lost when saving, and the file read
   * back gives those records' sequences and counts.
   */
  method ProcessFile(stream: seq<Counting.Pull>, fileSize: nat, chunkRequested: nat, includeRpm: bool,
                     format: OutputFormat, compression: string, formatRpm: Ppm -> string)
    returns (r: Result<OutputFile, Counting.CountError>, records: seq<SequenceRecord>)
    ensures r.Failure? <==> exists i | 0 <= i < |stream| :: stream[i].Malformed?
    ensures r.Success? ==> (Counting.Decode(stream).Success?
                            && IsTableOf(records, Tally(Counting.Decode(stream).value), |stream|, includeRpm))
    ensures r.Success? ==> (r.value.ParquetFile? <==> format == Parquet)
    ensures r.Success? ==> SaveOutput(records, format, compression, formatRpm) == Success(r.value)
    ensures r.Success? && r.value.ParquetFile? ==> r.value.codec == CompressionOf(compression)
    ensures r.Success? && r.value.DelimitedFile? ==> r.value.delimiter == (if format == Csv then ',' else '\t')
    ensures r.Success? && |stream| <= Decimal.U64_MAX ==> ReadBack(r.value) == Some(Pairs(records))
  {
    Counting.DecodeFailsOnMalformed(stream);
    var size := ChunkPlan.ChunkSize(fileSize, chunkRequested);
    var counted := Counting.CountSequences(stream, size);
    if counted.Failure? {
      records := [];
      r := Failure(counted.error);
      return;
    }
    var xs := Counting.Decode(stream).value;
    records := PrepareRecords(counted.value.counts, counted.value.total, includeRpm);
    SavingATableSucceeds(records, Tally(xs), |xs|, includeRpm, format, compression, formatRpm);
    var saved := SaveOutput(records, format, compression, formatRpm);
    r := Success(saved.value);
    if |stream| <= Decimal.U64_MAX {
      TableCountsFit(records, xs, includeRpm);
    }
  }
}

=== FILE: reduction.dfy ===
/**
 * The reduce step of the chunked counter. The partial maps are combined with
 * `Merge` from the empty map; the parallel runtime picks both the pairing and
 * the order. `MergeAll` is the left fold the model computes, and
 * `ScheduleMatchesFold` shows that every schedule gives the same map.
 */
module Reduction {
  import opened Frequency

  /** Merging the partial maps one after the other, starting from the empty map. */
  function MergeAll(parts: seq<Counts>): Counts {
    if |parts| == 0 then map[]
    else Merge(MergeAll(parts[..|parts| - 1]), parts[|parts| - 1])
  }

  /** The fold splits at any point: this is the contiguous split a work-stealing reduce uses. */
  lemma {:induction false} MergeAllAppend(xs: seq<Counts>, ys: seq<Counts>)
    ensures MergeAll(xs + ys) == Merge(MergeAll(xs), MergeAll(ys))
    decreases |ys|
  {
    if |ys| == 0 {
      assert xs + ys == xs;
      MergeIdentity(MergeAll(xs));
    } else {
      var init := ys[..|ys| - 1];
      var last := ys[|ys| - 1];
      assert (xs + ys)[..|xs + ys| - 1] == xs + init;
      MergeAllAppend(xs, init);
      MergeAssociates(MergeAll(xs), MergeAll(init), last);
    }
  }

  lemma MergeAllSingleton(m: Counts)
    ensures MergeAll([m]) == m
  {
    assert [m][..0] == [];
    MergeIdentity(m);
  }

  /** Taking one partial map out of the middle and merging it last changes nothing. */
  lemma MergeAllMoveLast(before: seq<Counts>, x: Counts, after: seq<Counts>)
    ensures MergeAll(before + [x] + after) == Merge(MergeAll(before + after), x)
  {
    calc {
      MergeAll(before + [x] + after);
      { MergeAllAppend(before + [x], after); }
      Merge(MergeAll(before + [x]), MergeAll(after));
      { MergeAllAppend(before, [x]); MergeAllSingleton(x); }
      Merge(Merge(MergeAll(before), x), MergeAll(after));
      { MergeAssociates(MergeAll(before), x, MergeAll(after));
        MergeCommutes(x, MergeAll(after));
        MergeAssociates(MergeAll(before), MergeAll(after), x); }
      Merge(Merge(MergeAll(before), MergeAll(after)), x);
      { MergeAllAppend(before, after); }
      Merge(MergeAll(before + after), x);
    }
  }

  lemma RemoveAt<T>(ys: seq<T>, i: nat)
    requires i < |ys|
    ensures ys == ys[..i] + [ys[i]] + ys[i + 1..]
    ensures multiset(ys[..i] + ys[i + 1..]) == multiset(ys) - multiset{ys[i]}
  {
    assert ys == ys[..i] + [ys[i]] + ys[i + 1..];
    assert multiset(ys) == multiset(ys[..i]) + multiset{ys[i]} + multiset(ys[i + 1..]);
  }

  lemma IndexOfElement<T>(ys: seq<T>, x: T) returns (i: nat)
    requires x in multiset(ys)
    ensures i < |ys| && ys[i] == x
  {
    i :| 0 <= i < |ys| && ys[i] == x;
  }

  /** Removing the same element from two permutations of each other leaves permutations. */
  lemma RemoveMatching<T>(xs: seq<T>, ys: seq<T>, i: nat)
    requires multiset(xs) == multiset(ys)
    requires |xs| > 0 && i < |ys| && ys[i] == xs[|xs| - 1]
    ensures multiset(xs[..|xs| - 1]) == multiset(ys[..i] + ys[i + 1..])
  {
    RemoveAt(xs, |xs| - 1);
    RemoveAt(ys, i);
  }

  /** Reordering the partial maps does not change the merged map. */
  lemma {:induction false} MergeAllPermutation(xs: seq<Counts>, ys: seq<Counts>)
    requires multiset(xs) == multiset(ys)
    ensures MergeAll(xs) == MergeAll(ys)
    decreases |xs|
  {
    if |xs| == 0 {
      assert |ys| == |multiset(ys)| == 0;
    } else {
      var x := xs[|xs| - 1];
      var i := IndexOfElement(ys, x);
      RemoveMatching(xs, ys, i);
      MergeAllPermutation(xs[..|xs| - 1], ys[..i] + ys[i + 1..]);
      MergeAllMoveLast(ys[..i], x, ys[i + 1..]);
      assert ys == ys[..i] + [x] + ys[i + 1..];
    }
  }

  /**
   * One run of the parallel reduce: the identity (an empty map) at any leaf,
   * partial maps at the others, and `Merge` at every inner node.
   */
  datatype Schedule = Identity | Part(counts: Counts) | Combine(left: Schedule, right: Schedule)

  function Evaluate(s: Schedule): Counts {
    match s
    case Identity => map[]
    case Part(m) => m
    case Combine(l, r) => Merge(Evaluate(l), Evaluate(r))
  }

  /** The partial maps a schedule consumes, left to right. */
  function Parts(s: Schedule): seq<Counts> {
    match s
    case Identity => []
    case Part(m) => [m]
    case Combine(l, r) => Parts(l) + Parts(r)
  }

  lemma {:induction false} EvaluateIsFold(s: Schedule)
    ensures Evaluate(s) == MergeAll(Parts(s))
  {
    match s
    case Identity =>
    case Part(m) => MergeAllSingleton(m);
    case Combine(l, r) =>
      EvaluateIsFold(l);
      EvaluateIsFold(r);
      MergeAllAppend(Parts(l), Parts(r));
  }

  /**
   * Whatever pairing and order the scheduler chooses, a schedule that consumes
   * each partial map exactly once yields the same map as the sequential fold.
   */
  lemma ScheduleMatchesFold(s: Schedule, parts: seq<Counts>)
    requires multiset(Parts(s)) == multiset(parts)
    ensures Evaluate(s) == MergeAll(parts)
  {
    EvaluateIsFold(s);
    MergeAllPermutation(Parts(s), parts);
  }

  /** Merging all partial maps adds up their totals. */
  lemma {:induction false} TotalMergeAll(parts: seq<Counts>)
    ensures Total(MergeAll(parts)) == SumTotals(parts)
  {
    if |parts| > 0 {
      TotalMergeAll(parts[..|parts| - 1]);
      TotalMerge(MergeAll(parts[..|parts| - 1]), parts[|parts| - 1]);
    }
  }

  ghost function SumTotals(parts: seq<Counts>): nat {
    if |parts| == 0 then 0 else SumTotals(parts[..|parts| - 1]) + Total(parts[|parts| - 1])
  }
}

=== FILE: table.dfy ===
/**
 * The table builder (`prepare_records`): one record per entry of the final
 * frequency map, with an optional reads-per-million value, sorted by count
 * from the largest down. The order among equal counts is left open.
 */
module Table {
  import opened Outcomes
  import opened Frequency

  /**
   * A reads-per-million value, kept as the exact ratio `count / total * 10^6`
   * it approximates; the floating-point rounding is not modelled.
   */
  datatype Ppm = Ppm(count: nat, total: nat)

  /** `SequenceRecord`: a sequence, its count, and its rpm when requested. */
  datatype SequenceRecord = SequenceRecord(sequence: string, count: nat, rpm: Option<Ppm>)

  /** The record the builder makes for one map entry. */
  function RecordFor(sequence: string, count: nat, total: nat, includeRpm: bool): SequenceRecord {
    SequenceRecord(sequence, count, if includeRpm then Some(Ppm(count, total)) else None)
  }

  /** The sequences the records name. */
  function KeySet(rs: seq<SequenceRecord>): set<string> {
    set r | r in rs :: r.sequence
  }

  predicate SortedByCountDesc(rs: seq<SequenceRecord>) {
    forall i, j | 0 <= i < j < |rs| :: rs[i].count >= rs[j].count
  }

  /**
   * The records are exactly the map's entries: one per key, with the map's
   * count, and an rpm exactly when it was asked for.
   */
  predicate EntriesOf(rs: seq<SequenceRecord>, counts: Counts, total: nat, includeRpm: bool) {
    && |rs| == |counts|
    && KeySet(rs) == counts.Keys
    && forall r | r in rs :: r.sequence in counts && r == RecordFor(r.sequence, counts[r.sequence], total, includeRpm)
  }

  /** What `prepare_records` promises about its result. */
  predicate IsTableOf(rs: seq<SequenceRecord>, counts: Counts, total: nat, includeRpm: bool) {
    EntriesOf(rs, counts, total, includeRpm) && SortedByCountDesc(rs)
  }

  /** The first record of a sorted table has the largest count. */
  lemma HeadIsLargest(sorted: seq<SequenceRecord>)
    requires SortedByCountDesc(sorted) && |sorted| > 0
    ensures forall x | x in sorted :: x.count <= sorted[0].count
  {
  }

  /** Prefixing a record at least as large as every other keeps a table sorted. */
  lemma SortedCons(h: SequenceRecord, t: seq<SequenceRecord>)
    requires SortedByCountDesc(t)
    requires forall x | x in t :: x.count <= h.count
    ensures SortedByCountDesc([h] + t)
  {
    forall i, j | 0 <= i < j < |[h] + t|
      ensures ([h] + t)[i].count >= ([h] + t)[j].count
    {
      if i == 0 {
        assert ([h] + t)[j] in t;
      }
    }
  }

  /** The recursive case of insertion: the head stays in front of the rest. */
  lemma InsertBehindHead(sorted: seq<SequenceRecord>, r: SequenceRecord, rest: seq<SequenceRecord>)
    requires SortedByCountDesc(sorted) && |sorted| > 0 && sorted[0].count > r.count
    requires SortedByCountDesc(rest)
    requires forall x | x in rest :: x in sorted[1..] || x == r
    ensures SortedByCountDesc([sorted[0]] + rest)
  {
    HeadIsLargest(sorted);
    forall x | x in rest
      ensures x.count <= sorted[0].count
    {
      if x != r {
        assert x in sorted;
      }
    }
    SortedCons(sorted[0], rest);
  }

  /** Insertion of one record into a table already sorted by count, largest first. */
  function InsertByCount(r: SequenceRecord, sorted: seq<SequenceRecord>): (out: seq<SequenceRecord>)
    requires SortedByCountDesc(sorted)
    ensures multiset(out) == multiset(sorted) + multiset{r}
    ensures forall x | x in out :: x in sorted || x == r
    ensures SortedByCountDesc(out)
  {
    if |sorted| == 0 then [r]
    else if sorted[0].count <= r.count then
      HeadIsLargest(sorted);
      SortedCons(r, sorted);
      [r] + sorted
    else
      var rest := InsertByCount(r, sorted[1..]);
      assert sorted == [sorted[0]] + sorted[1..];
      InsertBehindHead(sorted, r, rest);
      [sorted[0]] + rest
  }

  /**
   * `sort_unstable_by(|a, b| b.count.cmp(&a.count))`: a permutation of the
   * records in which counts never increase.
   */
  function SortByCountDesc(rs: seq<SequenceRecord>): (out: seq<SequenceRecord>)
    ensures multiset(out) == multiset(rs)
    ensures SortedByCountDesc(out)
  {
    if |rs| == 0 then []
    else
      assert rs == [rs[0]] + rs[1..];
      InsertByCount(rs[0], SortByCountDesc(rs[1..]))
  }

  lemma KeySetSnoc(rs: seq<SequenceRecord>, r: SequenceRecord)
    ensures KeySet(rs + [r]) == KeySet(rs) + {r.sequence}
  {
    assert forall x | x in rs + [r] :: x in rs || x == r;
  }

  /** Sets of sequence names are no larger than the lists they come from. */
  lemma {:induction false} KeySetSize(rs: seq<SequenceRecord>)
    ensures |KeySet(rs)| <= |rs|
  {
    if |rs| > 0 {
      var init := rs[..|rs| - 1];
      KeySetSize(init);
      assert rs == init + [rs[|rs| - 1]];
      KeySetSnoc(init, rs[|rs| - 1]);
    }
  }

  /** Two lists with the same elements name the same sequences. */
  lemma KeySetOfPermutation(xs: seq<SequenceRecord>, ys: seq<SequenceRecord>)
    requires multiset(xs) == multiset(ys)
    ensures KeySet(xs) == KeySet(ys)
    ensures |xs| == |ys|
    ensures forall r | r in xs :: r in ys
  {
    assert forall r :: r in xs <==> r in multiset(ys);
    assert |xs| == |multiset(xs)| == |multiset(ys)| == |ys|;
  }

  /** The records made so far: one per key no longer pending. */
  predicate Listed(unsorted: seq<SequenceRecord>, counts: Counts, pending: set<string>, total: nat, includeRpm: bool) {
    && pending <= counts.Keys
    && KeySet(unsorted) == counts.Keys - pending
    && |unsorted| == |counts.Keys - pending|
    && forall r | r in unsorted :: r.sequence in counts && r == RecordFor(r.sequence, counts[r.sequence], total, includeRpm)
  }

  /** Making the record of one more pending key. */
  lemma ListNext(unsorted: seq<SequenceRecord>, counts: Counts, pending: set<string>, total: nat, includeRpm: bool, k: string)
    requires Listed(unsorted, counts, pending, total, includeRpm) && k in pending
    ensures Listed(unsorted + [RecordFor(k, counts[k], total, includeRpm)], counts, pending - {k}, total, includeRpm)
  {
    KeySetSnoc(unsorted, RecordFor(k, counts[k], total, includeRpm));
    MoveKey(counts.Keys, pending, k);
  }

  /** With nothing pending, the records list the map. */
  lemma ListedAll(unsorted: seq<SequenceRecord>, counts: Counts, total: nat, includeRpm: bool)
    requires Listed(unsorted, counts, {}, total, includeRpm)
    ensures EntriesOf(unsorted, counts, total, includeRpm)
  {
    assert counts.Keys - {} == counts.Keys;
  }

  /** Reordering the records keeps them a listing of the map. */
  lemma EntriesOfPermutation(xs: seq<SequenceRecord>, ys: seq<SequenceRecord>, counts: Counts, total: nat, includeRpm: bool)
    requires multiset(xs) == multiset(ys) && EntriesOf(ys, counts, total, includeRpm)
    ensures EntriesOf(xs, counts, total, includeRpm)
  {
    KeySetOfPermutation(xs, ys);
  }

  /**
   * `prepare_records`: walk the map's entries in the hash map's unspecified
   * order, make one record each, then sort by count.
   */
  method PrepareRecords(counts: Counts, total: nat, includeRpm: bool) returns (rs: seq<SequenceRecord>)
    ensures IsTableOf(rs, counts, total, includeRpm)
  {
    var unsorted: seq<SequenceRecord> := [];
    var pending := counts.Keys;
    while pending != {}
      invariant Listed(unsorted, counts, pending, total, includeRpm)
      decreases pending
    {
      var k :| k in pending;
      ListNext(unsorted, counts, pending, total, includeRpm, k);
      unsorted := unsorted + [RecordFor(k, counts[k], total, includeRpm)];
      pending := pending - {k};
    }
    ListedAll(unsorted, counts, total, includeRpm);
    rs := SortByCountDesc(unsorted);
    EntriesOfPermutation(rs, unsorted, counts, total, includeRpm);
  }

  /** Moving one key from the pending set to the done set grows the done set by one. */
  lemma MoveKey(all: set<string>, pending: set<string>, k: string)
    requires pending <= all && k in pending
    ensures all - (pending - {k}) == (all - pending) + {k}
    ensures |all - (pending - {k})| == |all - pending| + 1
  {
    assert k !in all - pending;
  }

  /** A repeated sequence makes the set of names smaller than the list. */
  lemma {:induction false} RepeatShrinksKeySet(rs: seq<SequenceRecord>, i: nat, j: nat)
    requires i < j < |rs|
    ensures rs[i].sequence == rs[j].sequence ==> |KeySet(rs)| < |rs|
  {
    var rest := rs[..j] + rs[j + 1..];
    assert rs == rs[..j] + [rs[j]] + rs[j + 1..];
    assert rs[i] in rest;
    KeySetSize(rest);
    if rs[i].sequence == rs[j].sequence {
      assert KeySet(rs) <= KeySet(rest) by {
        forall r | r in rs
          ensures r.sequence in KeySet(rest)
        {
          if r != rs[j] {
            assert r in rest;
          }
        }
      }
      SubsetSize(KeySet(rs), KeySet(rest));
    }
  }

  /** No sequence appears in two rows. */
  lemma TableHasNoDuplicates(rs: seq<SequenceRecord>, counts: Counts, total: nat, includeRpm: bool)
    requires EntriesOf(rs, counts, total, includeRpm)
    ensures forall i, j | 0 <= i < j < |rs| :: rs[i].sequence != rs[j].sequence
  {
    forall i, j | 0 <= i < j < |rs|
      ensures rs[i].sequence != rs[j].sequence
    {
      RepeatShrinksKeySet(rs, i, j);
    }
  }

  lemma SubsetSize<T>(a: set<T>, b: set<T>)
    requires a <= b
    ensures |a| <= |b|
  {
    assert b == a + (b - a);
  }

  /** Sum of the counts in the rows. */
  function SumCounts(rs: seq<SequenceRecord>): nat {
    if |rs| == 0 then 0 else SumCounts(rs[..|rs| - 1]) + rs[|rs| - 1].count
  }

  /** Without its last row, a table lists the map without that row's key. */
  lemma DropLastEntry(rs: seq<SequenceRecord>, counts: Counts, total: nat, includeRpm: bool)
    requires EntriesOf(rs, counts, total, includeRpm) && |rs| > 0
    ensures var k := rs[|rs| - 1].sequence;
      k in counts && rs[|rs| - 1].count == counts[k]
      && EntriesOf(rs[..|rs| - 1], counts - {k}, total, includeRpm)
  {
    var init := rs[..|rs| - 1];
    var last := rs[|rs| - 1];
    var k := last.sequence;
    var rest := counts - {k};
    assert rs == init + [last];
    assert last in rs;
    KeySetSnoc(init, last);
    KeySetSize(init);
    assert k !in KeySet(init);
    assert rest.Keys == counts.Keys - {k};
    assert forall r | r in init :: r in rs && r.sequence in KeySet(init);
  }

  /** The rows account for every counted read: their counts add up to the map's total. */
  lemma {:induction false} TableConservation(rs: seq<SequenceRecord>, counts: Counts, total: nat, includeRpm: bool)
    requires EntriesOf(rs, counts, total, includeRpm)
    ensures SumCounts(rs) == Total(counts)
  {
    if |rs| == 0 {
      assert counts == map[];
    } else {
      var k := rs[|rs| - 1].sequence;
      DropLastEntry(rs, counts, total, includeRpm);
      TableConservation(rs[..|rs| - 1], counts - {k}, total, includeRpm);
      TotalRemove(counts, k);
    }
  }

  /** A table is empty exactly when the map is: an empty input gives a header-only output. */
  lemma EmptyTable(rs: seq<SequenceRecord>, counts: Counts, total: nat, includeRpm: bool)
    requires IsTableOf(rs, counts, total, includeRpm)
    ensures rs == [] <==> counts == map[]
  {
  }

  /** Every row of a table built from a tally has a positive total behind its rpm. */
  lemma RpmNeverDividesByZero(rs: seq<SequenceRecord>, xs: seq<string>)
    requires IsTableOf(rs, Tally(xs), |xs|, true)
    ensures forall r | r in rs :: r.rpm.Some? && r.rpm.value.total > 0 && r.rpm.value.count > 0
  {
    forall r | r in rs
      ensures r.rpm.Some? && r.rpm.value.total > 0 && r.rpm.value.count > 0
    {
      assert r.sequence in xs;
      assert multiset(xs)[r.sequence] > 0;
    }
  }

  /** The value an rpm stands for, as an exact real: count / total * 1,000,000. */
  function RpmValue(p: Ppm): real
    requires p.total > 0
  {
    (p.count as real) / (p.total as real) * 1000000.0
  }

  predicate RpmAgainst(rs: seq<SequenceRecord>, total: nat) {
    forall r | r in rs :: r.rpm == Some(Ppm(r.count, total))
  }

  /** Sum of the rpm values of the rows. */
  function SumRpm(rs: seq<SequenceRecord>, total: nat): real
    requires total > 0 && RpmAgainst(rs, total)
  {
    if |rs| == 0 then 0.0
    else
      assert rs[|rs| - 1] in rs;
      SumRpm(rs[..|rs| - 1], total) + RpmValue(rs[|rs| - 1].rpm.value)
  }

  lemma RealShares(a: real, c: real, t: real)
    requires t > 0.0
    ensures a / t * 1000000.0 + c / t * 1000000.0 == (a + c) / t * 1000000.0
  {
    assert a / t + c / t == (a + c) / t;
  }

  lemma {:induction false} SumRpmScales(rs: seq<SequenceRecord>, total: nat)
    requires total > 0 && RpmAgainst(rs, total)
    ensures SumRpm(rs, total) == (SumCounts(rs) as real) / (total as real) * 1000000.0
  {
    if |rs| > 0 {
      var init := rs[..|rs| - 1];
      var last := rs[|rs| - 1];
      assert last in rs;
      assert forall r | r in init :: r in rs;
      SumRpmScales(init, total);
      RealShares(SumCounts(init) as real, last.count as real, total as real);
    }
  }

  /** A table built with rpm carries each row's count over the given total. */
  lemma TableRpmAgainst(rs: seq<SequenceRecord>, counts: Counts, total: nat)
    requires EntriesOf(rs, counts, total, true)
    ensures RpmAgainst(rs, total)
  {
    forall r | r in rs
      ensures r.rpm == Some(Ppm(r.count, total))
    {
      assert r == RecordFor(r.sequence, counts[r.sequence], total, true);
    }
  }

  lemma WholeIsOneMillion(n: nat)
    requires n > 0
    ensures (n as real) / (n as real) * 1000000.0 == 1000000.0
  {
  }

  /**
   * With rpm requested, the rows' rpm values add up to exactly one million
   * (before floating-point rounding) whenever at least one read was counted.
   */
  lemma RpmSumsToOneMillion(rs: seq<SequenceRecord>, xs: seq<string>)
    requires IsTableOf(rs, Tally(xs), |xs|, true)
    requires |xs| > 0
    ensures RpmAgainst(rs, |xs|)
    ensures SumRpm(rs, |xs|) == 1000000.0
  {
    TableRpmAgainst(rs, Tally(xs), |xs|);
    SumRpmScales(rs, |xs|);
    TableConservation(rs, Tally(xs), |xs|, true);
    TallyTotal(xs);
    WholeIsOneMillion(|xs|);
  }

  lemma TallyOfThreeReads()
    ensures Tally(["AAA", "AAA", "CCG"]) == map["AAA" := 2, "CCG" := 1]
  {
    var xs := ["AAA", "AAA", "CCG"];
    assert multiset(xs) == multiset{"AAA", "AAA", "CCG"};
    assert "AAA" != "CCG";
    assert (set s | s in xs) == {"AAA", "CCG"};
    CountsExtensional(Tally(xs), map["AAA" := 2, "CCG" := 1]);
  }

  /** Reads AAA, AAA, CCG without rpm give the rows (AAA, 2), (CCG, 1), in this order. */
  lemma ScenarioThreeReads(rs: seq<SequenceRecord>)
    requires IsTableOf(rs, Tally(["AAA", "AAA", "CCG"]), 3, false)
    ensures rs == [SequenceRecord("AAA", 2, None), SequenceRecord("CCG", 1, None)]
  {
    var expected := map["AAA" := 2, "CCG" := 1];
    TallyOfThreeReads();
    assert |rs| == 2;
    assert rs[0] in rs && rs[1] in rs;
    RepeatShrinksKeySet(rs, 0, 1);
    assert "AAA" in KeySet(rs) && "CCG" in KeySet(rs);
    assert rs[0].count >= rs[1].count;
  }
}

=== FILE: thread_budget.dfy ===
/**
 * The thread-budget resolver (`calculate_optimal_threads`): how many worker
 * threads one process asks for, given an explicit request, the environment and
 * the machine's core count. The environment and `num_cpus::get` are passed in
 * as an `Environment` value, which makes the resolver a total pure function.
 */
module ThreadBudget {
  import opened Outcomes
  import Decimal
  import Arithmetic

  /**
   * What the resolver reads from its surroundings. A variable that is unset (or
   * not valid Unicode, which `std::env::var` also reports as an error) is `None`.
   */
  datatype Environment = Environment(
    rayonNumThreads: Option<string>,  // RAYON_NUM_THREADS
    parallelSeqSet: bool,             // PARALLEL_SEQ is present with a Unicode value; the value is never read
    parallel: Option<string>,         // PARALLEL, read as the number of sibling jobs
    cores: nat                        // num_cpus::get()
  )

  /** `s.parse::<usize>()` on a 64-bit target. */
  function ParseUsize(s: string): Option<nat> {
    Decimal.ParseUnsigned(s, Decimal.USIZE_MAX)
  }

  /** The thread count RAYON_NUM_THREADS imposes, if it is set and parses. */
  function Override(env: Environment): (n: Option<nat>)
    ensures env.rayonNumThreads.None? ==> n.None?
    ensures env.rayonNumThreads.Some? ==> n == ParseUsize(env.rayonNumThreads.value)
    ensures n.Some? ==> n.value <= Decimal.USIZE_MAX
  {
    match env.rayonNumThreads
    case None => None
    case Some(text) => ParseUsize(text)
  }

  /**
   * The number of sibling jobs an external parallel launcher is running:
   * PARALLEL parsed as a count when PARALLEL_SEQ is present, and 1 otherwise.
   */
  function SiblingJobs(env: Environment): (jobs: nat)
    ensures jobs != 1 ==> env.parallelSeqSet && env.parallel.Some?
                          && ParseUsize(env.parallel.value) == Some(jobs)
    ensures !env.parallelSeqSet ==> jobs == 1
    ensures env.parallelSeqSet && env.parallel.Some? && ParseUsize(env.parallel.value).Some?
            ==> jobs == ParseUsize(env.parallel.value).value
    ensures env.parallelSeqSet && (env.parallel.None? || ParseUsize(env.parallel.value).None?) ==> jobs == 1
  {
    if !env.parallelSeqSet then 1
    else match env.parallel
      case None => 1
      case Some(text) =>
        match ParseUsize(text)
        case None => 1
        case Some(n) => n
  }

  /**
   * The resolved thread count. A positive request wins, then a parseable
   * RAYON_NUM_THREADS (returned as it is, 0 included), then a fair share of the
   * cores among sibling jobs, then all cores.
   */
  function OptimalThreads(requested: nat, env: Environment): (n: nat)
    ensures requested > 0 ==> n == requested
    ensures requested == 0 && Override(env).Some? ==> n == Override(env).value
    ensures requested == 0 && Override(env).None? ==> n <= env.cores || n == 1
    ensures n == 0 ==> requested == 0 && (Override(env) == Some(0) || env.cores == 0)
  {
    if requested > 0 then requested
    else match Override(env)
      case Some(n) => n
      case None =>
        var jobs := SiblingJobs(env);
        if jobs > 1 then Share(env.cores, jobs) else env.cores
  }

  /** The floor of the cores' share per sibling job, raised to at least one. */
  function Share(cores: nat, jobs: nat): (share: nat)
    requires jobs > 1
    ensures share >= 1
    ensures share <= cores || share == 1
  {
    QuotientAtMost(cores, jobs);
    var quotient := cores / jobs;
    if quotient < 1 then 1 else quotient
  }

  lemma QuotientAtMost(a: nat, b: nat)
    requires b >= 1
    ensures a / b <= a
  {
    assert a == (a / b) * b + a % b;
    Arithmetic.ProductBounds(a / b, b);
  }

  /**
   * Under a launcher running `jobs > 1` siblings, each process takes the floor
   * of its share of the cores, but never less than one thread: the siblings
   * together never oversubscribe the machine when there are enough cores.
   */
  lemma FairShare(env: Environment)
    requires Override(env).None?
    requires SiblingJobs(env) > 1
    ensures var n := OptimalThreads(0, env); var jobs := SiblingJobs(env);
      && n >= 1
      && (env.cores >= jobs ==> n * jobs <= env.cores < (n + 1) * jobs)
      && (env.cores < jobs ==> n == 1)
  {
    ShareBounds(env.cores, SiblingJobs(env));
  }

  /** Floor division facts behind `FairShare`. */
  lemma ShareBounds(cores: nat, jobs: nat)
    requires jobs > 1
    ensures cores >= jobs ==> Share(cores, jobs) * jobs <= cores < (Share(cores, jobs) + 1) * jobs
    ensures cores < jobs ==> Share(cores, jobs) == 1
  {
    var q := cores / jobs;
    var r := cores % jobs;
    assert cores == q * jobs + r && 0 <= r < jobs;
    assert (q + 1) * jobs == q * jobs + jobs;
    Arithmetic.ProductBounds(q, jobs);
  }

  /** Without an override or siblings the process uses every core. */
  lemma AllCoresAlone(env: Environment)
    requires Override(env).None?
    requires SiblingJobs(env) <= 1
    ensures OptimalThreads(0, env) == env.cores
  {
  }

  /**
   * When nothing overrides it, the automatic budget is positive on any machine
   * that reports at least one core (as `num_cpus::get` always does).
   */
  lemma AutomaticBudgetPositive(env: Environment)
    requires Override(env).None?
    requires env.cores >= 1
    ensures OptimalThreads(0, env) >= 1
  {
  }

  /** A parseable RAYON_NUM_THREADS makes the launcher variables irrelevant. */
  lemma OverrideIgnoresSiblings(env: Environment, seqSet: bool, parallel: Option<string>)
    requires Override(env).Some?
    ensures OptimalThreads(0, env) == OptimalThreads(0, env.(parallelSeqSet := seqSet, parallel := parallel))
  {
  }

  /** PARALLEL is only consulted when PARALLEL_SEQ is present. */
  lemma ParallelNeedsSeqMarker(env: Environment)
    requires !env.parallelSeqSet
    requires Override(env).None?
    ensures OptimalThreads(0, env) == env.cores
  {
  }

  /**
   * Four sibling jobs on eight cores get two threads each; RAYON_NUM_THREADS=0
   * yields 0, which the caller reads as "leave the pool at its default".
   */
  lemma Examples()
    ensures OptimalThreads(0, Environment(None, true, Some("4"), 8)) == 2
    ensures OptimalThreads(0, Environment(None, true, Some("4"), 3)) == 1
    ensures OptimalThreads(0, Environment(None, false, Some("4"), 8)) == 8
    ensures OptimalThreads(0, Environment(None, true, Some("0"), 8)) == 8
    ensures OptimalThreads(0, Environment(Some("0"), true, Some("4"), 8)) == 0
    ensures OptimalThreads(0, Environment(Some("many"), false, None, 8)) == 8
    ensures OptimalThreads(6, Environment(Some("3"), true, Some("4"), 8)) == 6
  {
    assert "many"[0] == 'm';
  }
}
